=== FILE: README.md ===
# Scrabble Pad document store, in Dafny

Scrabble Pad is a single-page note editor: one heading and one text area,
saved to the browser's local storage, with several documents, an index of
them, import and export as text files, and a document manager that lists,
sorts, filters, deletes and favourites documents.

This project models the logic of `script.js` that can be stated without the
browser:

- `text.dfy` (module `Text`): JavaScript's whitespace class, `trim`, and
  `split`/`join` on one character.
- `word_count.dfy` (module `WordCounter`): the word and character counter.
- `note_format.dfy` (module `NoteFormat`): the `##heading##` file format of
  Export and Import. It covers the heading and body round trips and the edge
  cases of the import parser.
- `documents.dfy` (module `Documents`): the document record and storage keys,
  `getDocumentsList`/`saveDocumentsList`, and the pure list transforms behind
  toggling a favourite, deleting, saving and the header name.
- `session.dfy` (module `Session`): loading, the debounced save's body,
  creating, deleting, and choosing the document to show at start-up.
- `document_list.dfy` (module `DocumentList`): the document manager's sort,
  filter, card titles, previews, word counts and "Last edit" figure.
- `optional.dfy` (module `Optional`): an option type.

Storage is a value: a map from key to string for the per-document
`doc_<id>_heading` and `doc_<id>_content` items, plus the decoded document
index. The index is absent until it is first saved, and an absent index
reads as no records (an index stored as the empty string reads the same way,
so it is modelled as absent). The clock, the generated id, the user's answers to
`confirm` and `prompt`, the session's redirect id and the page path are all
parameters. Timestamps are integers (milliseconds since the epoch). A `char`
stands for one UTF-16 code unit, which is what JavaScript's `length` counts.

Behaviour worth knowing, each stated by a lemma:

- `localStorage.getItem(k) || default` treats a stored empty string as
  missing. So a document saved with an empty heading loads with the
  placeholder heading (`SaveThenLoad`).
- A serialised heading comes back from import exactly when it is trimmed,
  has no newline and has no two adjacent `#`. A lone `#` survives: when
  a heading has no two adjacent `#`, stripping the heading followed by the
  closing `##` removes exactly those added marks (`StripMarksBeforeMark`,
  used by `SerializedHeadingRoundTrip`).
- A file with `\r\n` line endings has a first line ending in `\r`. That line
  fails the `##` test, so the whole file, heading line included, becomes the
  body (`CrlfHeadingLineIsBody`).
- A new document's pending save renames its record from "New Document" to
  "Untitled Document", because the cleared heading is the placeholder
  (`CreateThenSave`).

Points where the code's behaviour is easy to misread, which the model follows:

- A malformed index is not read as empty. `getDocumentsList` calls
  `JSON.parse` unguarded (script.js:412), so it throws. Only a missing index,
  or one stored as the empty string, reads as no records.
- New ids are never checked against the index. The lemmas that need a fresh
  id say so in their preconditions.
- A save keeps an empty heading as an empty title (script.js:482-483). Only
  the header maps `""` to the untitled label (script.js:843).
- `created <= updated` holds for every record only while the clock never goes
  back. `createNewDocument` reads the clock twice (script.js:431-432), and a
  save stamps `updated` with a third reading. `CreateKeepsInvariants` and
  `RecordSaveKeepsInvariants` state this in their preconditions.

The page as shipped runs none of the document-store code. At load time,
script.js:16-22 replaces `initDocumentSystem`, `createNewDocument`,
`loadDocument`, `deleteDocument`, `getDocumentsList`, `saveDocumentsList`,
`toggleFavorite` and `showDocumentManager` with stubs that return `false`.
Nothing calls `initDocumentSystem`: the load handler calls `initDocument`
(script.js:797). So `currentDocId` stays empty, and the debounced save always
stops at its first check (script.js:470). The model describes the function
bodies as written, as they behave when called.

## Model

| member | source | states |
|---|---|---|
| Text.Trim | script.js:258 | the result is the input with the leading and trailing whitespace cut off. It has no whitespace at either end, it is empty exactly when the input is all whitespace, and a trimmed input is returned unchanged |
| Text.IsWhitespace | script.js:66 | the whitespace class shared by `trim` and `\s`: JavaScript's WhiteSpace and LineTerminator code points |
| Text.Split | script.js:252 | `split("\n")` always yields at least one piece, no piece contains the separator, and joining the pieces with the separator gives back the input |
| Text.Join | script.js:259-261 | `parts.join(sep)` for a one-character separator. `Split` joins back to its input, and `SplitHeadTail` shows that joining the pieces after the first gives the text after the first separator |
| Text.SplitHeadTail | script.js:252-259 | the first piece is the text before the first newline, and joining the other pieces gives exactly the text after that newline |
| Text.TrimKeepsAbsent | script.js:258 | trimming never introduces a character |
| WordCounter.WordCount | script.js:66 | the word figure equals the number of maximal non-whitespace runs of the text. It is 0 exactly when the text is all whitespace, and it never exceeds the text's length |
| WordCounter.SplitWhitespace | script.js:66 | `split(/\s+/)` always yields at least one piece. The number of pieces on trimmed text is fixed by `SplitCountsWords` |
| WordCounter.CharCount | script.js:67 | the character figure is the text's length. It is never below the word figure and is 0 only for empty text |
| WordCounter.SplitCountsWords | script.js:66 | `split(/\s+/)` on non-empty trimmed text gives one piece per word |
| WordCounter.WordsOfTrim | script.js:66 | trimming removes no word |
| NoteFormat.StripMarks | script.js:258 | `replace(/##/g, "")` leaves no two adjacent `#`, keeps every character other than `#` in its order, never lengthens the text, and introduces no character. A text without two adjacent `#` is returned unchanged, and `StripMarksRun` and `StripMarksConcat` fix the result for the remaining texts |
| NoteFormat.IsHeadingLine | script.js:257 | a line is a heading line when it starts and ends with `##`. The two marks may overlap, so `##` alone qualifies |
| NoteFormat.Serialize | script.js:226 | the file is `##<heading>##`, a newline, then the text. For a single-line heading the text before the first newline is the heading line and the text after it is exactly the body |
| NoteFormat.StripMarksRun | script.js:258 | a run of `k` marks strips to one `#` when `k` is odd and to nothing when it is even, since pairs are removed from the left |
| NoteFormat.StripMarksConcat | script.js:258 | stripping a text cut where the two sides do not both have a `#` is stripping each side and joining the results. With the pair-free clause of `StripMarks` and `StripMarksRun` this fixes the result of every text, e.g. `"##a#b"` strips to `"a#b"` |
| NoteFormat.StripMarksBeforeMark | script.js:258 | a heading without two adjacent `#`, followed by the closing `##`, strips back to itself |
| NoteFormat.ParseNote | script.js:252-262 | if the first line (up to the first newline) starts and ends with `##`, the heading is that line stripped of `##` and trimmed, and the body is exactly the text after that newline. Otherwise the heading is empty and the body is the whole input |
| NoteFormat.ParsedHeadingIsOneLine | script.js:252-258 | the parsed heading never contains a newline |
| NoteFormat.Import | script.js:252-267 | for a heading line, the heading is the line stripped of `##` and trimmed, or the placeholder when that is empty, and the text is everything after the first newline. Input without a heading line becomes the text unchanged under the placeholder. The heading is never empty |
| NoteFormat.ExportHeading | script.js:207-225 | the exported heading is the trimmed heading, or the date label when that is empty or the placeholder |
| NoteFormat.DefaultFilename | script.js:215-220 | the suggested name is the export heading rule applied with `scrabble-pad_<stamp>` as the fallback, followed by `.txt`. So it is the trimmed heading, or `scrabble-pad_<stamp>` for an empty or placeholder heading, and it always ends in `.txt` |
| NoteFormat.Export | script.js:218-226 | a cancelled or empty file name exports nothing. Otherwise the file has the chosen name. For a single-line exported heading, the text before the first newline is `##<exported heading>##` and the text after it is exactly the editor's text |
| NoteFormat.SerializedBodyRoundTrip | script.js:252-259 | parsing `##H##\n` + T gives back exactly T whenever H is a single line |
| NoteFormat.MultiLineBodyLost | script.js:252-262 | a heading containing a newline never lets the body come back: the parsed body is longer than the exported one |
| NoteFormat.SerializedBodyRoundTripIff | script.js:252-262 | parsing `##H##\n` + T gives back exactly T if and only if H has no newline |
| NoteFormat.SerializedHeadingRoundTrip | script.js:252-259 | parsing `##H##\n` + T gives back H if and only if H is trimmed, is one line, and has no two adjacent `#` |
| NoteFormat.MultiLineHeadingLost | script.js:252-258 | a heading containing a newline never survives export and import |
| NoteFormat.MarkPairHeadingLost | script.js:258 | a heading with two adjacent `#` never survives export and import |
| NoteFormat.ExportImportRoundTrip | script.js:207-267 | for an exported heading without a newline, export then import restores the editor's text. It restores the trimmed heading when that is real and free of `##`, and gives the date label for an empty or placeholder heading |
| NoteFormat.CrlfHeadingLineIsBody | script.js:252-266 | when the first line ends in `\r`, import keeps the whole file as the body under the placeholder heading |
| NoteFormat.BareMarkLine | script.js:257-266 | a first line of just `##` counts as a heading line with an empty heading, so the placeholder is shown and the rest is the body |
| NoteFormat.TripleMarkLine | script.js:257-258 | a first line of `###` gives the heading `#` |
| Documents.KeysDistinct | script.js:475-476 | different ids never share a storage key, and a heading key is never a content key |
| Documents.HeadingKey | script.js:475 | a document's heading is stored under `doc_<id>_heading`. `KeysDistinct` shows no two documents share it |
| Documents.ContentKey | script.js:476 | a document's text is stored under `doc_<id>_content`. `KeysDistinct` shows no two documents share it |
| Documents.ItemOr | script.js:505-507 | a missing or empty stored item reads as the fallback, and any other item reads as itself |
| Documents.DocumentsList | script.js:410-413 | a missing index reads as no records, and a stored index reads as itself |
| Documents.SaveDocumentsList | script.js:416-418 | reading the index after saving it gives back the saved records, and no other item changes |
| Documents.FindIndex | script.js:480 | the result is the position of the first record with the id, or -1 exactly when no record has it |
| Documents.NewRecord | script.js:427-433 | a new record is titled "New Document" and is not a favourite. Its `created` and `updated` are the two clock readings, so it is well timed when the second reading is not earlier than the first |
| Documents.ToggleInList | script.js:1043-1047 | only the first record with the id changes, and only its favourite flag, which is negated. Length and order are kept, and without a match the list is unchanged |
| Documents.ToggleFavorite | script.js:1041-1054 | the stored index becomes the toggled list. Without a matching record the storage is left exactly as it was |
| Documents.ToggleFavoriteTwice | script.js:1041-1048 | toggling the same id twice restores the decoded index, so every record reads as it did before |
| Documents.ToggleKeepsInvariants | script.js:1047 | toggling keeps ids unique and keeps every record's `created <= updated` |
| Documents.RemoveId | script.js:545 | the survivors are exactly the records without the id, and the list is unchanged when no record has it |
| Documents.RemoveIdConcat | script.js:545 | removal distributes over concatenation, so the survivors keep their relative order |
| Documents.RemoveIdKeepsInvariants | script.js:545 | removal keeps ids unique and records well timed |
| Documents.TitleFor | script.js:482-483 | the saved title is never the placeholder. A placeholder heading becomes the untitled label, and any other heading becomes the title unchanged |
| Documents.RecordSave | script.js:479-486 | only the first record with the id changes: its title follows the heading and its `updated` becomes the save time. Id, `created` and favourite flag are kept, and the length is unchanged |
| Documents.RecordSaveKeepsInvariants | script.js:479-486 | a save no earlier than any creation time keeps records well timed and ids unique |
| Documents.HeaderName | script.js:834-849 | the header is never empty or the placeholder. It shows the current record's title, or the untitled label when there is no such record or its title is empty or the placeholder |
| Documents.HeaderAfterSave | script.js:838-845 | after a save with a non-empty heading, the header shows the title that save gave the record |
| Session.LoadDocument | script.js:503-517 | loading makes the id current and leaves storage alone. The editor gets the stored heading (placeholder if missing or empty) and the stored text (empty if missing) |
| Session.SaveStep | script.js:469-486 | with no current document nothing changes. Otherwise the heading and text are stored under the current id's keys, every other key is untouched, and the index changes only by the save of the first matching record |
| Session.SaveThenLoad | script.js:469-507 | loading right after a save gives back the saved text, and the saved heading unless it was empty (then the placeholder) |
| Session.LastSaveWins | script.js:475-476 | after two saves of one document, loading shows the second |
| Session.CreateNewDocument | script.js:421-452 | creation appends exactly one record (the new-record shape) after the unchanged old records. It makes the new id current, clears the editor to the placeholder and empty text, and touches no content item |
| Session.CreateKeepsInvariants | script.js:427-434 | creating with a fresh id keeps ids unique and records well timed |
| Session.CreateThenSave | script.js:421-486 | once a new document's pending save runs, its last record is titled "Untitled Document", keeps its creation time and takes the save time as `updated`. Its stored heading is the placeholder, its text is empty, and loading it gives the cleared editor |
| Session.DeleteDocument | script.js:539-559 | without confirmation nothing changes. Otherwise the index loses every record with the id, its two content items go, and no other item changes. If the deleted document was current, the last remaining record becomes current and the editor shows its stored heading and text (placeholder and empty if missing). When no record remains, a new document is created and the editor is cleared |
| Session.DeletedDocumentIsGone | script.js:544-550 | after deletion the id loads as an empty note and no record with it remains |
| Session.PathDocId | script.js:391-392 | the path's document id is the path without its first character |
| Session.InitDocumentSystem | script.js:380-407 | start-up loads the first that applies: the redirect id, then the path id (unless empty or `index.html`), then the last record of the index. With none of these it creates a document |
| Session.InitOutcome | script.js:380-434 | start-up always ends with a non-empty current id and changes no content item. The index is unchanged or has exactly one new record appended |
| DocumentList.FilterOf | script.js:931-943 | a button value selects the recent or favourite filter exactly when it is "recent" or "favorite", and every other value shows all records |
| DocumentList.Insert | script.js:919-922 | inserting into a newest-first list keeps it newest-first and adds exactly that one element |
| DocumentList.SortDesc | script.js:916-922 | sorting yields a permutation of the records, newest first on the chosen timestamp |
| DocumentList.SortDescStable | script.js:919-922 | for each key value, the records with that key appear in the same order as in the input |
| DocumentList.SortedDescUnique | script.js:916-922 | a newest-first list is fixed by its multiset of records and by the order of the records within each key. So a sort that is stable and a permutation has exactly one result |
| DocumentList.SortOf | script.js:913-929 | without a dropdown the order is "updated". "updated" and "created" select the timestamp sorts, "name" selects the title order, which is not modelled, and any other value keeps the index order |
| DocumentList.Sort | script.js:912-928 | the "updated" and "created" choices sort newest first, and any other choice keeps the index order |
| DocumentList.Shown | script.js:935-942 | "recent" passes records updated strictly within the last week, "favorite" passes flagged records, and "all" passes every record |
| DocumentList.Select | script.js:934-943 | the filter keeps exactly the records that pass, and "all" keeps every record |
| DocumentList.SelectCount | script.js:934-943 | each record that passes the filter is kept as often as it occurs, and every other record is dropped |
| DocumentList.SelectKeepsOrder | script.js:934-943 | filtering a newest-first list leaves it newest-first |
| DocumentList.SelectConcat | script.js:939-942 | filtering distributes over concatenation, so the listed records keep their relative order |
| DocumentList.ListedDocs | script.js:912-943 | the manager lists a permutation of the filtered index: exactly the records that pass, each as often as in the index. Unsorted, it is the filtered index in index order. With a timestamp sort it is newest first, and records with equal timestamps keep their index order |
| DocumentList.ListedDocsDetermined | script.js:912-943 | any newest-first permutation of the filtered index that keeps the index order among equal timestamps is exactly the listing, so the `ListedDocs` contract admits only the code's result |
| DocumentList.FavoriteFilterIsExact | script.js:940-942 | the favourite filter lists a record if and only if it is in the index and flagged |
| DocumentList.CardTitle | script.js:964-966 | a placeholder title shows as "Untitled Document", and any other title is shown as is |
| DocumentList.Preview | script.js:954-969 | the preview is never empty and never longer than 153 characters. Content over 150 characters is cut to its first 150 plus "...", shorter content is shown whole, and empty content shows "Empty document" |
| DocumentList.CardFor | script.js:946-969 | a card carries its record's id, favourite flag and update time, and its card title. It is active exactly for the current id. Its word count and preview are those of the stored content |
| DocumentList.Cards | script.js:946 | there is one card per listed record, in the listed order |
| DocumentList.CardsBelongToIndex | script.js:946-961 | every card belongs to a record of the index |
| DocumentList.CardsFollowListing | script.js:919-942 | under the favourite filter every card is flagged, and under the recent filter every card was updated within the week. Sorted by update time, the cards are newest first |
| DocumentList.LastEdit | script.js:866-876 | "Last edit" is absent exactly for an empty index. Otherwise it is the largest `updated` of any record, and some record has it |

## Left out

- DocumentList.Sort: the "name" order (`localeCompare` on titles) is not modelled, because it depends on the browser's locale collation. The model offers only the two timestamp orders and "keep the index order", and `SortOf` maps "name" to `None`.
- Documents.ToggleFavorite: a record written without a `favorite` field (as `createNewDocument` writes it) is modelled as one with `favorite` false. Both read the same to every reader of the index, but after two toggles the stored JSON holds `"favorite":false` where it held no field before.
- DocumentList.Shown: the recent filter's cut-off is `now` minus exactly seven days of milliseconds. The code subtracts seven calendar days in local time, which differs by an hour across a daylight-saving change.
- Session.LoadDocument: always succeeds. The `try`/`catch` that returns `false` on a storage exception is not modelled, because storage here cannot fail. The same holds for `deleteDocument`'s `catch`.
- Session.CreateNewDocument: the id from `Date.now()` and `Math.random()` and the two clock readings are parameters (a `Creation` value). The `saveDocumentContent()` it calls only schedules the debounced save, which is `SaveStep`, applied by the caller when the timer fires.
- Session.InitDocumentSystem: removing the redirect id from session storage, and `history.pushState`, are not modelled. Both are browser state outside the document store.
- The debounce timer, the save indicator and notifications are not modelled (timer and event-loop behaviour and UI). Only the body that runs when the save timer fires is modelled.
- `JSON.parse`/`JSON.stringify` of the index is not modelled. The index is stored decoded, and a malformed index, which makes the code throw, cannot arise. An index stored as the empty string is modelled as a missing index, since both read as no records.
- ISO date strings and `toLocaleDateString` are not modelled. Timestamps are integers, and display formatting is outside the model.
- The counter's text `"<n> words | <m> characters"` is not modelled. It is formatting only.
- DOM wiring, modals, menus, keyboard shortcuts, touch gestures, dark mode, sharing links, the welcome dialog and the clear-text button are not modelled. They are UI with no document-store logic.
- The start-up stubbing loop (script.js:16-22) is not modelled. It disables every modelled operation of the page as shipped, as described above. The shadowed first `saveDocumentContent` and `showDocumentManager` are not modelled either, nor the self-wrapping reassignments inside `createNewDocument`, `saveDocumentContent` and `loadDocument`, which only add `updateDocumentHeader` calls.
- Characters outside the Basic Multilingual Plane (two UTF-16 code units in JavaScript) are not modelled. Each `char` stands for one code unit.

=== FILE: document_list.dfy ===
/** What the document manager lists: the index sorted by a timestamp, filtered
    to all, recent or favourite records, and turned into cards with a title,
    a content preview and a word count. */
module DocumentList {
  import opened Optional
  import opened NoteFormat
  import opened Documents
  import opened WordCounter

  /** The "recent" filter's window: seven days in milliseconds. */
  const WEEK_MS: int := 7 * 24 * 60 * 60 * 1000

  /** Characters of content a card shows before it is cut off. */
  const PREVIEW_LENGTH: nat := 150

  /** The timestamp a list is sorted on, newest first. */
  datatype SortField = Updated | Created

  /** The sort dropdown's choice; any value other than the two timestamp
      orders leaves the index order as it is. */
  datatype SortOrder = SortBy(field: SortField) | Unsorted

  /** The active filter button. */
  datatype Filter = All | Recent | Favorite

  /** One card of the document manager. */
  datatype Card = Card(id: string, title: string, preview: string, words: nat,
                       active: bool, favorite: bool, updated: int)

  /** The filter a button's `data-filter` value selects: anything other than
      "recent" and "favorite" shows every record. */
  function FilterOf(name: string): (f: Filter)
    ensures f == Recent <==> name == "recent"
    ensures f == Favorite <==> name == "favorite"
  {
    if name == "recent" then Recent else if name == "favorite" then Favorite else All
  }

  /** The sort order the dropdown's value selects; `None` for `choice` means
      the page has no dropdown, which sorts by update time. "name" selects the
      title order, which is not modelled (`None`), and any other value leaves
      the index order as it is. */
  function SortOf(choice: Option<string>): (order: Option<SortOrder>)
    ensures choice.None? ==> order == Some(SortBy(Updated))
    ensures choice.Some? ==> (order == Some(SortBy(Updated)) <==> choice.value == "updated")
    ensures choice.Some? ==> (order == Some(SortBy(Created)) <==> choice.value == "created")
    ensures order.None? <==> choice == Some("name")
    ensures order == Some(Unsorted) <==>
      choice.Some? && choice.value !in {"updated", "created", "name"}
  {
    var value := if choice.Some? then choice.value else "updated";
    if value == "updated" then Some(SortBy(Updated))
    else if value == "created" then Some(SortBy(Created))
    else if value == "name" then None
    else Some(Unsorted)
  }

  function Key(d: Doc, f: SortField): int {
    match f
    case Updated => d.updated
    case Created => d.created
  }

  /** Newest first on `f`. */
  predicate SortedDesc(s: seq<Doc>, f: SortField) {
    forall i, j :: 0 <= i < j < |s| ==> Key(s[i], f) >= Key(s[j], f)
  }

  /** Places `d` before the first element whose key is not greater than its own. */
  function Insert(d: Doc, s: seq<Doc>, f: SortField): (r: seq<Doc>)
    requires SortedDesc(s, f)
    ensures SortedDesc(r, f)
    ensures multiset(r) == multiset(s) + multiset{d}
    ensures r[0] == d || (|s| > 0 && r[0] == s[0])
  {
    if |s| == 0 then [d]
    else if Key(d, f) >= Key(s[0], f) then [d] + s
    else
      var rest := Insert(d, s[1..], f);
      assert s == [s[0]] + s[1..];
      ConsSorted(s[0], rest, f);
      [s[0]] + rest
  }

  /** Prefixing a sorted list with an element no older than its head keeps it sorted. */
  lemma ConsSorted(x: Doc, s: seq<Doc>, f: SortField)
    requires SortedDesc(s, f)
    requires |s| == 0 || Key(x, f) >= Key(s[0], f)
    ensures SortedDesc([x] + s, f)
  {
    var r := [x] + s;
    forall i, j | 0 <= i < j < |r| ensures Key(r[i], f) >= Key(r[j], f) {
      if i == 0 && j > 1 {
        assert r[j] == s[j - 1];
      }
    }
  }

  /** `[...docs].sort((a, b) => key(b) - key(a))`: newest first, and, since
      JavaScript's sort is stable, records with equal keys keep their order. */
  function SortDesc(docs: seq<Doc>, f: SortField): (r: seq<Doc>)
    ensures SortedDesc(r, f)
    ensures multiset(r) == multiset(docs)
  {
    if |docs| == 0 then []
    else
      assert docs == [docs[0]] + docs[1..];
      Insert(docs[0], SortDesc(docs[1..], f), f)
  }

  /** The records whose key is `v`, in order. */
  function WithKey(s: seq<Doc>, f: SortField, v: int): seq<Doc> {
    if |s| == 0 then []
    else if Key(s[0], f) == v then [s[0]] + WithKey(s[1..], f, v)
    else WithKey(s[1..], f, v)
  }

  lemma WithKeyCons(x: Doc, t: seq<Doc>, f: SortField, v: int)
    ensures WithKey([x] + t, f, v) == (if Key(x, f) == v then [x] else []) + WithKey(t, f, v)
  {
    assert ([x] + t)[0] == x;
    assert ([x] + t)[1..] == t;
  }

  /** The step of `InsertWithKey` past an element newer than `d`. */
  lemma InsertWithKeyStep(d: Doc, s: seq<Doc>, rest: seq<Doc>, f: SortField, v: int)
    requires |s| > 0 && Key(d, f) < Key(s[0], f)
    requires WithKey(rest, f, v) == (if Key(d, f) == v then [d] else []) + WithKey(s[1..], f, v)
    ensures WithKey([s[0]] + rest, f, v) == (if Key(d, f) == v then [d] else []) + WithKey(s, f, v)
  {
    WithKeyCons(s[0], rest, f, v);
    assert s == [s[0]] + s[1..];
    WithKeyCons(s[0], s[1..], f, v);
    if Key(d, f) == v {
      assert Key(s[0], f) != v;
    }
  }

  lemma {:induction false} InsertWithKey(d: Doc, s: seq<Doc>, f: SortField, v: int)
    requires SortedDesc(s, f)
    ensures WithKey(Insert(d, s, f), f, v) ==
      (if Key(d, f) == v then [d] else []) + WithKey(s, f, v)
  {
    if |s| == 0 || Key(d, f) >= Key(s[0], f) {
      assert Insert(d, s, f) == [d] + s;
      WithKeyCons(d, s, f, v);
    } else {
      var rest := Insert(d, s[1..], f);
      assert Insert(d, s, f) == [s[0]] + rest;
      InsertWithKey(d, s[1..], f, v);
      InsertWithKeyStep(d, s, rest, f, v);
    }
  }

  /** Stability: among records with equal keys, sorting keeps the input order. */
  lemma {:induction false} SortDescStable(docs: seq<Doc>, f: SortField, v: int)
    ensures WithKey(SortDesc(docs, f), f, v) == WithKey(docs, f, v)
  {
    if |docs| > 0 {
      SortDescStable(docs[1..], f, v);
      InsertWithKey(docs[0], SortDesc(docs[1..], f), f, v);
    }
  }

  /** The list's order for a sort choice. */
  function Sort(docs: seq<Doc>, order: SortOrder): (r: seq<Doc>)
    ensures multiset(r) == multiset(docs)
    ensures order.SortBy? ==> SortedDesc(r, order.field)
    ensures order.Unsorted? ==> r == docs
  {
    match order
    case SortBy(f) => SortDesc(docs, f)
    case Unsorted => docs
  }

  /** Whether a record passes the filter at time `now`: recent means updated
      strictly within the last week, favourite means flagged. */
  predicate Shown(d: Doc, filter: Filter, now: int) {
    match filter
    case All => true
    case Recent => d.updated > now - WEEK_MS
    case Favorite => d.favorite
  }

  /** `sortedDocs.filter(...)` for the active filter. */
  function Select(docs: seq<Doc>, filter: Filter, now: int): (r: seq<Doc>)
    ensures |r| <= |docs|
    ensures forall d :: d in r <==> d in docs && Shown(d, filter, now)
    ensures filter == All ==> r == docs
  {
    if |docs| == 0 then []
    else
      assert docs == [docs[0]] + docs[1..];
      if Shown(docs[0], filter, now) then [docs[0]] + Select(docs[1..], filter, now)
      else Select(docs[1..], filter, now)
  }

  /** Filtering keeps the sorted order. */
  lemma {:induction false} SelectKeepsOrder(docs: seq<Doc>, filter: Filter, now: int, f: SortField)
    requires SortedDesc(docs, f)
    ensures SortedDesc(Select(docs, filter, now), f)
  {
    if |docs| > 0 {
      SelectKeepsOrder(docs[1..], filter, now, f);
      var rest := Select(docs[1..], filter, now);
      forall j | 0 <= j < |rest| ensures Key(docs[0], f) >= Key(rest[j], f) {
        assert rest[j] in docs[1..];
      }
    }
  }

  /** Filtering works piece by piece, so the shown records keep their order. */
  lemma {:induction false} SelectConcat(a: seq<Doc>, b: seq<Doc>, filter: Filter, now: int)
    ensures Select(a + b, filter, now) == Select(a, filter, now) + Select(b, filter, now)
  {
    if |a| == 0 {
      assert a + b == b;
    } else {
      assert (a + b)[1..] == a[1..] + b;
      assert (a + b)[0] == a[0];
      SelectConcat(a[1..], b, filter, now);
    }
  }

  /** Filtering keeps each shown record as often as it occurs and drops every
      other record. */
  lemma {:induction false} SelectCount(docs: seq<Doc>, filter: Filter, now: int, d: Doc)
    ensures multiset(Select(docs, filter, now))[d] ==
      if Shown(d, filter, now) then multiset(docs)[d] else 0
  {
    if |docs| > 0 {
      assert docs == [docs[0]] + docs[1..];
      SelectCount(docs[1..], filter, now, d);
    }
  }

  /** Filtering two permutations of each other gives permutations of each other. */
  lemma SelectPerm(a: seq<Doc>, b: seq<Doc>, filter: Filter, now: int)
    requires multiset(a) == multiset(b)
    ensures multiset(Select(a, filter, now)) == multiset(Select(b, filter, now))
  {
    forall d ensures multiset(Select(a, filter, now))[d] == multiset(Select(b, filter, now))[d] {
      SelectCount(a, filter, now, d);
      SelectCount(b, filter, now, d);
    }
  }

  /** Filtering and picking the records with one key commute. */
  lemma {:induction false} SelectWithKey(docs: seq<Doc>, filter: Filter, now: int, f: SortField, v: int)
    ensures WithKey(Select(docs, filter, now), f, v) == Select(WithKey(docs, f, v), filter, now)
  {
    if |docs| > 0 {
      SelectWithKey(docs[1..], filter, now, f, v);
      var x := docs[0];
      var rest := Select(docs[1..], filter, now);
      var keyed := WithKey(docs[1..], f, v);
      if Shown(x, filter, now) {
        WithKeyCons(x, rest, f, v);
      }
      if Key(x, f) == v {
        assert ([x] + keyed)[0] == x && ([x] + keyed)[1..] == keyed;
      }
    }
  }

  /** Sorting and then filtering gives a permutation of the filtered index that
      keeps the index order among records with equal keys. */
  lemma SortThenSelect(docs: seq<Doc>, f: SortField, filter: Filter, now: int)
    ensures multiset(Select(SortDesc(docs, f), filter, now)) == multiset(Select(docs, filter, now))
    ensures forall v ::
              WithKey(Select(SortDesc(docs, f), filter, now), f, v) == WithKey(Select(docs, filter, now), f, v)
  {
    SelectPerm(SortDesc(docs, f), docs, filter, now);
    forall v ensures WithKey(Select(SortDesc(docs, f), filter, now), f, v) ==
      WithKey(Select(docs, filter, now), f, v)
    {
      SelectWithKey(SortDesc(docs, f), filter, now, f, v);
      SelectWithKey(docs, filter, now, f, v);
      SortDescStable(docs, f, v);
    }
  }

  /** Two newest-first permutations of each other start with the same key. */
  lemma SortedHeadKeys(a: seq<Doc>, b: seq<Doc>, f: SortField)
    requires SortedDesc(a, f) && SortedDesc(b, f)
    requires multiset(a) == multiset(b) && |a| > 0
    ensures |b| > 0 && Key(a[0], f) == Key(b[0], f)
  {
    assert |b| == |multiset(b)| == |a|;
    assert a[0] in multiset(b) && b[0] in multiset(a);
    var i :| 0 <= i < |b| && b[i] == a[0];
    var j :| 0 <= j < |a| && a[j] == b[0];
    assert Key(b[0], f) >= Key(b[i], f);
    assert Key(a[0], f) >= Key(a[j], f);
  }

  /** Lists with the same records per key and the same first key start with
      the same record, and their tails again have the same records per key. */
  lemma WithKeyHeads(a: seq<Doc>, b: seq<Doc>, f: SortField)
    requires |a| > 0 && |b| > 0 && Key(a[0], f) == Key(b[0], f)
    requires forall v :: WithKey(a, f, v) == WithKey(b, f, v)
    ensures a[0] == b[0]
    ensures forall v :: WithKey(a[1..], f, v) == WithKey(b[1..], f, v)
  {
    assert a == [a[0]] + a[1..] && b == [b[0]] + b[1..];
    var k := Key(a[0], f);
    WithKeyCons(a[0], a[1..], f, k);
    WithKeyCons(b[0], b[1..], f, k);
    assert WithKey(a, f, k)[0] == a[0] && WithKey(b, f, k)[0] == b[0];
    forall v ensures WithKey(a[1..], f, v) == WithKey(b[1..], f, v) {
      WithKeyCons(a[0], a[1..], f, v);
      WithKeyCons(b[0], b[1..], f, v);
      if k == v {
        assert WithKey(a, f, v)[1..] == WithKey(a[1..], f, v);
        assert WithKey(b, f, v)[1..] == WithKey(b[1..], f, v);
      }
    }
  }

  /** A newest-first list is fixed by its elements and by the order of the
      elements within each key, so those are all a sort needs to promise. */
  lemma {:induction false} SortedDescUnique(a: seq<Doc>, b: seq<Doc>, f: SortField)
    requires SortedDesc(a, f) && SortedDesc(b, f)
    requires multiset(a) == multiset(b)
    requires forall v :: WithKey(a, f, v) == WithKey(b, f, v)
    ensures a == b
  {
    if |a| == 0 {
      assert |b| == |multiset(b)| == 0;
    } else {
      SortedHeadKeys(a, b, f);
      WithKeyHeads(a, b, f);
      SortedTails(a, b, f);
      SortedDescUnique(a[1..], b[1..], f);
      assert a == [a[0]] + a[1..] && b == [b[0]] + b[1..];
    }
  }

  /** Two newest-first permutations of each other with the same head have
      newest-first tails that are permutations of each other. */
  lemma SortedTails(a: seq<Doc>, b: seq<Doc>, f: SortField)
    requires SortedDesc(a, f) && SortedDesc(b, f)
    requires multiset(a) == multiset(b) && |a| > 0 && |b| > 0 && a[0] == b[0]
    ensures multiset(a[1..]) == multiset(b[1..])
    ensures SortedDesc(a[1..], f) && SortedDesc(b[1..], f)
  {
    assert a == [a[0]] + a[1..] && b == [b[0]] + b[1..];
    assert multiset(a[1..]) == multiset(a) - multiset{a[0]};
    assert multiset(b[1..]) == multiset(b) - multiset{b[0]};
  }

  /** The records the manager lists, in display order: the records of the
      index that pass the filter, each as often as in the index. Without a sort
      they keep the index order; with a timestamp sort they are newest first and
      records with equal timestamps keep the index order. */
  function ListedDocs(st: Storage, order: SortOrder, filter: Filter, now: int): (r: seq<Doc>)
    ensures forall d :: d in r <==> d in DocumentsList(st) && Shown(d, filter, now)
    ensures multiset(r) == multiset(Select(DocumentsList(st), filter, now))
    ensures order.Unsorted? ==> r == Select(DocumentsList(st), filter, now)
    ensures order.SortBy? ==> SortedDesc(r, order.field)
    ensures order.SortBy? ==> forall v ::
              WithKey(r, order.field, v) == WithKey(Select(DocumentsList(st), filter, now), order.field, v)
    ensures filter == All ==> multiset(r) == multiset(DocumentsList(st))
  {
    var docs := DocumentsList(st);
    var sorted := Sort(docs, order);
    assert forall d :: d in sorted <==> d in docs by {
      assert forall d :: d in sorted <==> d in multiset(sorted);
    }
    match order
    case SortBy(f) =>
      SelectKeepsOrder(sorted, filter, now, f);
      SortThenSelect(docs, f, filter, now);
      Select(sorted, filter, now)
    case Unsorted => Select(sorted, filter, now)
  }

  /** Any newest-first permutation of the filtered index that keeps the index
      order among equal timestamps is exactly the listing. */
  lemma ListedDocsDetermined(st: Storage, f: SortField, filter: Filter, now: int, r: seq<Doc>)
    requires SortedDesc(r, f)
    requires multiset(r) == multiset(Select(DocumentsList(st), filter, now))
    requires forall v :: WithKey(r, f, v) == WithKey(Select(DocumentsList(st), filter, now), f, v)
    ensures r == ListedDocs(st, SortBy(f), filter, now)
  {
    SortedDescUnique(r, ListedDocs(st, SortBy(f), filter, now), f);
  }

  /** The favourite filter lists exactly the flagged records. */
  lemma FavoriteFilterIsExact(st: Storage, order: SortOrder, now: int, d: Doc)
    ensures d in ListedDocs(st, order, Favorite, now) <==> d in DocumentsList(st) && d.favorite
  {
  }

  /** The card title: the placeholder heading shows as the untitled label. */
  function CardTitle(title: string): (t: string)
    ensures t != PLACEHOLDER
    ensures title != PLACEHOLDER ==> t == title
    ensures title == PLACEHOLDER ==> t == UNTITLED
  {
    if title == PLACEHOLDER then UNTITLED else title
  }

  /** The card's preview: the content cut to 150 characters plus "..." when
      longer, the content itself otherwise, and "Empty document" when empty. */
  function Preview(content: string): (p: string)
    ensures |p| <= PREVIEW_LENGTH + 3
    ensures p != ""
    ensures content == "" ==> p == "Empty document"
    ensures 0 < |content| <= PREVIEW_LENGTH ==> p == content
    ensures |content| > PREVIEW_LENGTH ==>
      |p| == PREVIEW_LENGTH + 3 && p[..PREVIEW_LENGTH] == content[..PREVIEW_LENGTH] && p[PREVIEW_LENGTH..] == "..."
  {
    var cut := if |content| > PREVIEW_LENGTH then content[..PREVIEW_LENGTH] + "..." else content;
    if cut == "" then "Empty document" else cut
  }

  /** The card for one record; `current` is the current document id. */
  function CardFor(d: Doc, st: Storage, current: string): (c: Card)
    ensures c.id == d.id && c.favorite == d.favorite && c.updated == d.updated
    ensures c.active <==> d.id == current
    ensures c.title == CardTitle(d.title)
    ensures c.words == Words(ItemOr(st, ContentKey(d.id), ""))
    ensures c.preview == Preview(ItemOr(st, ContentKey(d.id), ""))
  {
    var content := ItemOr(st, ContentKey(d.id), "");
    Card(d.id, CardTitle(d.title), Preview(content), WordCount(content), d.id == current, d.favorite, d.updated)
  }

  /** The manager's cards: one per listed record, in the same order. */
  function Cards(docs: seq<Doc>, st: Storage, current: string): (cs: seq<Card>)
    ensures |cs| == |docs|
    ensures forall i :: 0 <= i < |docs| ==> cs[i] == CardFor(docs[i], st, current)
  {
    if |docs| == 0 then [] else [CardFor(docs[0], st, current)] + Cards(docs[1..], st, current)
  }

  /** Every card belongs to a record of the index. */
  lemma CardsBelongToIndex(st: Storage, current: string, order: SortOrder, filter: Filter, now: int)
    ensures var cs := Cards(ListedDocs(st, order, filter, now), st, current);
      forall i :: 0 <= i < |cs| ==> FindIndex(DocumentsList(st), cs[i].id) >= 0
  {
    var listed := ListedDocs(st, order, filter, now);
    var docs := DocumentsList(st);
    forall i | 0 <= i < |listed| ensures FindIndex(docs, listed[i].id) >= 0 {
      assert listed[i] in docs;
    }
  }

  /** The cards honour the filter and, when sorted by update time, the order. */
  lemma CardsFollowListing(st: Storage, current: string, order: SortOrder, filter: Filter, now: int)
    ensures var cs := Cards(ListedDocs(st, order, filter, now), st, current);
      && (filter == Favorite ==> forall i :: 0 <= i < |cs| ==> cs[i].favorite)
      && (filter == Recent ==> forall i :: 0 <= i < |cs| ==> cs[i].updated > now - WEEK_MS)
      && (order == SortBy(Updated) ==> forall i, j :: 0 <= i < j < |cs| ==> cs[i].updated >= cs[j].updated)
  {
    var listed := ListedDocs(st, order, filter, now);
    assert forall d :: d in listed ==> Shown(d, filter, now);
    CardsShown(listed, st, current, filter, now);
    if order == SortBy(Updated) {
      CardsNewestFirst(listed, st, current);
    }
  }

  /** The cards of records that all pass the filter show only flagged or
      recently updated records, as the filter asks. */
  lemma CardsShown(listed: seq<Doc>, st: Storage, current: string, filter: Filter, now: int)
    requires forall d :: d in listed ==> Shown(d, filter, now)
    ensures var cs := Cards(listed, st, current);
      && (filter == Favorite ==> forall i :: 0 <= i < |cs| ==> cs[i].favorite)
      && (filter == Recent ==> forall i :: 0 <= i < |cs| ==> cs[i].updated > now - WEEK_MS)
  {
    var cs := Cards(listed, st, current);
    forall i | 0 <= i < |cs| ensures Shown(listed[i], filter, now) && cs[i].favorite == listed[i].favorite
      && cs[i].updated == listed[i].updated
    {
      assert listed[i] in listed;
    }
  }

  /** The cards of a newest-first list are newest first. */
  lemma CardsNewestFirst(listed: seq<Doc>, st: Storage, current: string)
    requires SortedDesc(listed, Updated)
    ensures var cs := Cards(listed, st, current);
      forall i, j :: 0 <= i < j < |cs| ==> cs[i].updated >= cs[j].updated
  {
    var cs := Cards(listed, st, current);
    forall i, j | 0 <= i < j < |cs| ensures cs[i].updated >= cs[j].updated {
      assert Key(listed[i], Updated) >= Key(listed[j], Updated);
    }
  }

  /** The "Last edit" figure of the manager's header: none for an empty index,
      otherwise the newest `updated` of any record. */
  function LastEdit(docs: seq<Doc>): (t: Option<int>)
    ensures t.None? <==> |docs| == 0
    ensures t.Some? ==> forall j :: 0 <= j < |docs| ==> docs[j].updated <= t.value
    ensures t.Some? ==> exists j :: 0 <= j < |docs| && docs[j].updated == t.value
  {
    if |docs| == 0 then None
    else
      var sorted := SortDesc(docs, Updated);
      assert sorted[0] in multiset(docs);
      assert forall j :: 0 <= j < |docs| ==> docs[j] in multiset(sorted);
      Some(sorted[0].updated)
  }
}

=== FILE: documents.dfy ===
/** The document index and the browser storage it lives in: records, the
    derived content keys, `getDocumentsList`/`saveDocumentsList`, and the pure
    list transforms behind favourite toggling, deletion and the header name. */
module Documents {
  import opened Optional
  import opened NoteFormat

  /** Title given to a freshly created record. */
  const NEW_TITLE: string := "New Document"

  /** Title shown for a document whose heading is the placeholder. */
  const UNTITLED: string := "Untitled Document"

  /** One entry of the document index. Timestamps are milliseconds since the
      epoch; a record written without `favorite` reads as not favourite. */
  datatype Doc = Doc(id: string, title: string, created: int, updated: int, favorite: bool)

  /** Local storage: the per-document heading and content strings under their
      derived keys, and the document index, which is absent until first saved. */
  datatype Storage = Storage(items: map<string, string>, index: Option<seq<Doc>>)

  function HeadingKey(id: string): string {
    "doc_" + id + "_heading"
  }

  function ContentKey(id: string): string {
    "doc_" + id + "_content"
  }

  /** Different documents never share a storage key, and a heading key is never
      a content key. */
  lemma KeysDistinct(a: string, b: string)
    ensures HeadingKey(a) == HeadingKey(b) ==> a == b
    ensures ContentKey(a) == ContentKey(b) ==> a == b
    ensures HeadingKey(a) != ContentKey(b)
  {
    if HeadingKey(a) == HeadingKey(b) {
      assert a == HeadingKey(a)[4..|HeadingKey(a)| - 8];
    }
    if ContentKey(a) == ContentKey(b) {
      assert a == ContentKey(a)[4..|ContentKey(a)| - 8];
    }
    if |a| == |b| {
      var h := HeadingKey(a);
      var c := ContentKey(b);
      assert h[|h| - 1] == 'g' && c[|c| - 1] == 't';
    }
  }

  /** `localStorage.getItem(key) || fallback`: a missing or empty item reads as
      `fallback`. */
  function ItemOr(st: Storage, key: string, fallback: string): (v: string)
    ensures key in st.items && st.items[key] != "" ==> v == st.items[key]
    ensures key !in st.items || st.items[key] == "" ==> v == fallback
  {
    if key in st.items && st.items[key] != "" then st.items[key] else fallback
  }

  /** `getDocumentsList`: the stored index, or no records when there is none. */
  function DocumentsList(st: Storage): (docs: seq<Doc>)
    ensures st.index.None? ==> docs == []
    ensures st.index.Some? ==> docs == st.index.value
  {
    match st.index
    case Some(docs) => docs
    case None => []
  }

  /** `saveDocumentsList`: replaces the stored index and nothing else. */
  function SaveDocumentsList(st: Storage, docs: seq<Doc>): (r: Storage)
    ensures DocumentsList(r) == docs
    ensures r.items == st.items
  {
    st.(index := Some(docs))
  }

  /** Every record has a distinct id. The code never checks this; operations
      that add no record keep it. */
  predicate UniqueIds(docs: seq<Doc>) {
    forall i, j :: 0 <= i < j < |docs| ==> docs[i].id != docs[j].id
  }

  /** No record was updated before it was created. */
  predicate WellTimed(docs: seq<Doc>) {
    forall i :: 0 <= i < |docs| ==> docs[i].created <= docs[i].updated
  }

  /** `docs.findIndex(doc => doc.id === id)`: the position of the first record
      with that id, or -1 when there is none. */
  function FindIndex(docs: seq<Doc>, id: string): (k: int)
    ensures -1 <= k < |docs|
    ensures k == -1 <==> forall j :: 0 <= j < |docs| ==> docs[j].id != id
    ensures k >= 0 ==> docs[k].id == id && forall j :: 0 <= j < k ==> docs[j].id != id
  {
    if |docs| == 0 then -1
    else if docs[0].id == id then 0
    else
      var k := FindIndex(docs[1..], id);
      if k == -1 then -1 else k + 1
  }

  /** What `createNewDocument` draws from its environment: the generated id and
      the two clock readings it stores as `created` and `updated`. */
  datatype Creation = Creation(id: string, created: int, updated: int)

  /** The record `createNewDocument` appends: titled "New Document", not a
      favourite, stamped with the two readings. */
  function NewRecord(c: Creation): (d: Doc)
    ensures d.id == c.id && d.title == NEW_TITLE && !d.favorite
    ensures d.created == c.created && d.updated == c.updated
    ensures c.created <= c.updated ==> WellTimed([d])
  {
    Doc(c.id, NEW_TITLE, c.created, c.updated, false)
  }

  /** The favourite flag of the first record with `id` flipped; the list is
      unchanged when no record has that id. */
  function ToggleInList(docs: seq<Doc>, id: string): (r: seq<Doc>)
    ensures |r| == |docs|
    ensures forall j :: 0 <= j < |docs| && j != FindIndex(docs, id) ==> r[j] == docs[j]
    ensures FindIndex(docs, id) >= 0 ==>
      var k := FindIndex(docs, id);
      r[k].favorite == !docs[k].favorite &&
      r[k].(favorite := docs[k].favorite) == docs[k]
  {
    var k := FindIndex(docs, id);
    if k >= 0 then docs[k := docs[k].(favorite := !docs[k].favorite)] else docs
  }

  /** `toggleFavorite`: the index is written back only when a record matched. */
  function ToggleFavorite(st: Storage, id: string): (r: Storage)
    ensures r.items == st.items
    ensures DocumentsList(r) == ToggleInList(DocumentsList(st), id)
    ensures FindIndex(DocumentsList(st), id) < 0 ==> r == st
  {
    var docs := DocumentsList(st);
    if FindIndex(docs, id) >= 0 then SaveDocumentsList(st, ToggleInList(docs, id)) else st
  }

  /** Toggling the same document twice restores the storage exactly. */
  lemma ToggleFavoriteTwice(st: Storage, id: string)
    ensures ToggleFavorite(ToggleFavorite(st, id), id) == st
  {
    var docs := DocumentsList(st);
    var k := FindIndex(docs, id);
    if k >= 0 {
      var once := ToggleInList(docs, id);
      assert FindIndex(once, id) == k by {
        assert once[k].id == id;
        assert forall j :: 0 <= j < k ==> once[j] == docs[j];
      }
      var twice := ToggleInList(once, id);
      assert twice == docs;
      assert st.index == Some(docs);
    }
  }

  /** Toggling keeps ids and timestamps, so it keeps both index invariants. */
  lemma ToggleKeepsInvariants(docs: seq<Doc>, id: string)
    ensures UniqueIds(docs) ==> UniqueIds(ToggleInList(docs, id))
    ensures WellTimed(docs) ==> WellTimed(ToggleInList(docs, id))
  {
    var r := ToggleInList(docs, id);
    assert forall j :: 0 <= j < |docs| ==> r[j].id == docs[j].id && r[j].created == docs[j].created && r[j].updated == docs[j].updated;
  }

  /** `docs.filter(doc => doc.id !== id)`. */
  function RemoveId(docs: seq<Doc>, id: string): (r: seq<Doc>)
    ensures |r| <= |docs|
    ensures forall d :: d in r <==> d in docs && d.id != id
    ensures (forall j :: 0 <= j < |docs| ==> docs[j].id != id) ==> r == docs
  {
    if |docs| == 0 then []
    else if docs[0].id == id then RemoveId(docs[1..], id)
    else
      assert docs == [docs[0]] + docs[1..];
      [docs[0]] + RemoveId(docs[1..], id)
  }

  /** Removal works piece by piece, so the survivors keep their relative order. */
  lemma {:induction false} RemoveIdConcat(a: seq<Doc>, b: seq<Doc>, id: string)
    ensures RemoveId(a + b, id) == RemoveId(a, id) + RemoveId(b, id)
  {
    if |a| == 0 {
      assert a + b == b;
    } else {
      assert (a + b)[1..] == a[1..] + b;
      RemoveIdConcat(a[1..], b, id);
    }
  }

  /** Removal keeps both index invariants. */
  lemma RemoveIdKeepsInvariants(docs: seq<Doc>, id: string)
    ensures UniqueIds(docs) ==> UniqueIds(RemoveId(docs, id))
    ensures WellTimed(docs) ==> WellTimed(RemoveId(docs, id))
  {
    if UniqueIds(docs) {
      RemoveIdKeepsUnique(docs, id);
    }
    if WellTimed(docs) {
      var r := RemoveId(docs, id);
      forall j | 0 <= j < |r| ensures r[j].created <= r[j].updated {
        assert r[j] in docs;
      }
    }
  }

  lemma {:induction false} RemoveIdKeepsUnique(docs: seq<Doc>, id: string)
    requires UniqueIds(docs)
    ensures UniqueIds(RemoveId(docs, id))
  {
    if |docs| > 0 {
      var tail := docs[1..];
      assert UniqueIds(tail) by {
        forall i, j | 0 <= i < j < |tail| ensures tail[i].id != tail[j].id {
          assert tail[i] == docs[i + 1] && tail[j] == docs[j + 1];
        }
      }
      RemoveIdKeepsUnique(tail, id);
      if docs[0].id != id {
        var rest := RemoveId(tail, id);
        assert forall j :: 0 <= j < |rest| ==> rest[j].id != docs[0].id by {
          forall j | 0 <= j < |rest| ensures rest[j].id != docs[0].id {
            assert rest[j] in tail;
          }
        }
        ConsUnique(docs[0], rest);
      }
    }
  }

  lemma ConsUnique(d: Doc, s: seq<Doc>)
    requires UniqueIds(s)
    requires forall j :: 0 <= j < |s| ==> s[j].id != d.id
    ensures UniqueIds([d] + s)
  {
    var r := [d] + s;
    forall i, j | 0 <= i < j < |r| ensures r[i].id != r[j].id {
      assert r[j] == s[j - 1];
      if i > 0 { assert r[i] == s[i - 1]; }
    }
  }

  /** The title a save gives a record: the heading, or the untitled label when
      the heading is the placeholder. */
  function TitleFor(heading: string): (t: string)
    ensures t == UNTITLED <==> heading == PLACEHOLDER || heading == UNTITLED
    ensures t != PLACEHOLDER
    ensures heading != PLACEHOLDER ==> t == heading
  {
    if heading == PLACEHOLDER then UNTITLED else heading
  }

  /** The save step's index update: the first record with `id` gets the heading's
      title and `updated := now`; nothing changes when no record has that id. */
  function RecordSave(docs: seq<Doc>, id: string, heading: string, now: int): (r: seq<Doc>)
    ensures |r| == |docs|
    ensures forall j :: 0 <= j < |docs| && j != FindIndex(docs, id) ==> r[j] == docs[j]
    ensures FindIndex(docs, id) >= 0 ==>
      var k := FindIndex(docs, id);
      r[k] == Doc(id, TitleFor(heading), docs[k].created, now, docs[k].favorite)
  {
    var k := FindIndex(docs, id);
    if k >= 0 then docs[k := docs[k].(title := TitleFor(heading), updated := now)] else docs
  }

  /** A save at a time no earlier than any creation keeps every record well
      timed, and it changes no id. */
  lemma RecordSaveKeepsInvariants(docs: seq<Doc>, id: string, heading: string, now: int)
    requires forall j :: 0 <= j < |docs| ==> docs[j].created <= now
    ensures WellTimed(docs) ==> WellTimed(RecordSave(docs, id, heading, now))
    ensures UniqueIds(docs) ==> UniqueIds(RecordSave(docs, id, heading, now))
  {
    var r := RecordSave(docs, id, heading, now);
    assert forall j :: 0 <= j < |docs| ==> r[j].id == docs[j].id;
  }

  /** `updateDocumentHeader`: the current record's title, with an empty or
      placeholder title, or no current record at all, shown as the untitled label. */
  function HeaderName(docs: seq<Doc>, current: string): (name: string)
    ensures name != "" && name != PLACEHOLDER
    ensures FindIndex(docs, current) < 0 ==> name == UNTITLED
    ensures FindIndex(docs, current) >= 0 ==>
      var t := docs[FindIndex(docs, current)].title;
      (t == "" || t == PLACEHOLDER ==> name == UNTITLED) &&
      (t != "" && t != PLACEHOLDER ==> name == t)
  {
    var k := FindIndex(docs, current);
    if k >= 0 then
      var t := docs[k].title;
      if t == PLACEHOLDER || t == "" then UNTITLED else t
    else UNTITLED
  }

  /** After a save of a non-empty heading, the header shows that heading, or
      the untitled label for the placeholder. */
  lemma HeaderAfterSave(docs: seq<Doc>, id: string, heading: string, now: int)
    requires FindIndex(docs, id) >= 0 && heading != ""
    ensures HeaderName(RecordSave(docs, id, heading, now), id) == TitleFor(heading)
  {
    var k := FindIndex(docs, id);
    var r := RecordSave(docs, id, heading, now);
    assert FindIndex(r, id) == k by {
      assert forall j :: 0 <= j < k ==> r[j] == docs[j];
    }
  }
}

=== FILE: note_format.dfy ===
/** The note file format used by the Export and Import buttons: a first line
    `##<heading>##`, a newline, then the body text as it stands. */
module NoteFormat {
  import opened Text
  import opened Optional

  /** The heading element's text before the user has typed a heading. */
  const PLACEHOLDER: string := "HEADING HERE..."

  /** The heading and body the editor shows. */
  datatype Editor = Editor(heading: string, text: string)

  /** What the import parser recovers from a file; an empty heading means the
      file had no heading line (or an empty one). */
  datatype Note = Note(heading: string, body: string)

  datatype ExportedFile = ExportedFile(name: string, content: string)

  /** `s[i]` and `s[i + 1]` are both `#`. */
  predicate PairAt(s: string, i: int) {
    0 <= i < |s| - 1 && s[i] == '#' && s[i + 1] == '#'
  }

  /** `s` contains two adjacent `#` characters. */
  predicate HasMarkPair(s: string) {
    exists i :: 0 <= i < |s| - 1 && PairAt(s, i)
  }

  /** `line.startsWith("##") && line.endsWith("##")`; the two marks may overlap. */
  predicate IsHeadingLine(line: string) {
    |line| >= 2 && line[..2] == "##" && line[|line| - 2..] == "##"
  }

  /** The characters of `s` other than `#`, in order. */
  function NoMarks(s: string): string {
    if |s| == 0 then "" else (if s[0] == '#' then "" else [s[0]]) + NoMarks(s[1..])
  }

  /** `s.replace(/##/g, "")`: removes `##` pairs scanning left to right, a pair
      never overlapping the one removed before it. */
  function StripMarks(s: string): (r: string)
    ensures |r| <= |s|
    ensures forall c :: c in r ==> c in s
    ensures NoMarks(r) == NoMarks(s)
    ensures |s| > 0 && s[0] != '#' ==> |r| > 0 && r[0] == s[0]
    ensures !HasMarkPair(r)
    ensures !HasMarkPair(s) ==> r == s
  {
    if |s| >= 2 && s[0] == '#' && s[1] == '#' then
      assert PairAt(s, 0);
      NoMarksOfPair(s);
      StripMarks(s[2..])
    else if |s| == 0 then ""
    else
      var rest := StripMarks(s[1..]);
      TailNoMarkPair(s);
      assert s == [s[0]] + s[1..];
      NoMarksCons(s[0], s[1..]);
      NoMarksCons(s[0], rest);
      ConsNoMarkPair(s[0], rest);
      [s[0]] + rest
  }

  /** Dropping the first character creates no `##` pair. */
  lemma TailNoMarkPair(s: string)
    requires |s| > 0
    ensures !HasMarkPair(s) ==> !HasMarkPair(s[1..])
  {
    if HasMarkPair(s[1..]) {
      var i :| 0 <= i < |s| - 2 && PairAt(s[1..], i);
      assert PairAt(s, i + 1);
    }
  }

  lemma NoMarksCons(c: char, t: string)
    ensures NoMarks([c] + t) == (if c == '#' then "" else [c]) + NoMarks(t)
  {
    assert ([c] + t)[1..] == t;
  }

  lemma NoMarksOfPair(s: string)
    requires |s| >= 2 && s[0] == '#' && s[1] == '#'
    ensures NoMarks(s) == NoMarks(s[2..])
  {
    assert s[1..][1..] == s[2..];
  }

  /** Prefixing `c` to a text free of `##` pairs creates none, unless both `c`
      and the text's first character are `#`. */
  lemma ConsNoMarkPair(c: char, t: string)
    requires !HasMarkPair(t)
    requires |t| == 0 || c != '#' || t[0] != '#'
    ensures !HasMarkPair([c] + t)
  {
    var r := [c] + t;
    forall i | 0 <= i < |r| - 1 ensures !PairAt(r, i) {
      if i > 0 && PairAt(r, i) { assert PairAt(t, i - 1); }
    }
  }

  /** `StripMarks` removes a leading `##` pair. */
  lemma StripMarksPair(s: string)
    requires |s| >= 2 && s[0] == '#' && s[1] == '#'
    ensures StripMarks(s) == StripMarks(s[2..])
  {
  }

  /** `StripMarks` keeps a first character that does not start a pair. */
  lemma StripMarksKeep(s: string)
    requires |s| > 0 && !(|s| >= 2 && s[0] == '#' && s[1] == '#')
    ensures StripMarks(s) == [s[0]] + StripMarks(s[1..])
  {
  }

  /** A run of `k` marks. */
  function Marks(k: nat): (m: string)
    ensures |m| == k && forall i :: 0 <= i < k ==> m[i] == '#'
  {
    seq(k, _ => '#')
  }

  /** A run of at least two marks is a pair followed by a shorter run. */
  lemma MarksTail(k: nat)
    requires k >= 2
    ensures Marks(k)[0] == '#' && Marks(k)[1] == '#'
    ensures Marks(k)[2..] == Marks(k - 2)
  {
  }

  /** A run of `k` marks strips to one `#` when `k` is odd and to nothing when
      it is even: pairs are removed from the left. */
  lemma {:induction false} StripMarksRun(k: nat)
    ensures StripMarks(Marks(k)) == Marks(k % 2)
  {
    if k >= 2 {
      MarksTail(k);
      StripMarksPair(Marks(k));
      StripMarksRun(k - 2);
    } else if k == 1 {
      assert Marks(1) == "#";
      StripMarksKeep("#");
      assert "#"[1..] == "";
    } else {
      assert Marks(0) == "";
    }
  }

  /** How the front of `a + b` relates to the front of `a`. */
  lemma ConcatFront(a: string, b: string, k: nat)
    requires k <= |a|
    ensures forall i :: 0 <= i < k ==> (a + b)[i] == a[i]
    ensures (a + b)[k..] == a[k..] + b
  {
  }

  lemma ConsAssoc(c: char, x: string, y: string)
    ensures [c] + x + y == [c] + (x + y)
  {
  }

  /** The step of `StripMarksConcat` past a leading `##` pair of `a`. */
  lemma StripMarksConcatPair(a: string, b: string)
    requires |a| >= 2 && a[0] == '#' && a[1] == '#'
    requires StripMarks(a[2..] + b) == StripMarks(a[2..]) + StripMarks(b)
    ensures StripMarks(a + b) == StripMarks(a) + StripMarks(b)
  {
    ConcatFront(a, b, 2);
    StripMarksPair(a + b);
    StripMarksPair(a);
  }

  /** The step of `StripMarksConcat` past a first character of `a` that does
      not start a pair. */
  lemma StripMarksConcatKeep(a: string, b: string)
    requires |a| >= 2 && !(a[0] == '#' && a[1] == '#')
    requires StripMarks(a[1..] + b) == StripMarks(a[1..]) + StripMarks(b)
    ensures StripMarks(a + b) == StripMarks(a) + StripMarks(b)
  {
    ConcatFront(a, b, 2);
    ConcatFront(a, b, 1);
    StripMarksKeep(a + b);
    StripMarksKeep(a);
    ConsAssoc(a[0], StripMarks(a[1..]), StripMarks(b));
  }

  /** `StripMarksConcat` for a one-character `a`. */
  lemma StripMarksConcatOne(a: string, b: string)
    requires |a| == 1 && (b == "" || a[0] != '#' || b[0] != '#')
    ensures StripMarks(a + b) == StripMarks(a) + StripMarks(b)
  {
    ConcatFront(a, b, 1);
    assert a[1..] == "";
    StripMarksKeep(a + b);
    StripMarksKeep(a);
    ConsAssoc(a[0], "", StripMarks(b));
  }

  /** Stripping works piece by piece across a cut that does not split a run of
      marks, so together with `StripMarksRun` and the pair-free clause of
      `StripMarks` it fixes the result for every text. */
  lemma {:induction false} StripMarksConcat(a: string, b: string)
    requires a == "" || b == "" || a[|a| - 1] != '#' || b[0] != '#'
    ensures StripMarks(a + b) == StripMarks(a) + StripMarks(b)
    decreases |a|
  {
    if |a| == 0 {
      assert a + b == b;
    } else if |a| == 1 {
      StripMarksConcatOne(a, b);
    } else if a[0] == '#' && a[1] == '#' {
      StripMarksConcat(a[2..], b);
      StripMarksConcatPair(a, b);
    } else {
      StripMarksConcat(a[1..], b);
      StripMarksConcatKeep(a, b);
    }
  }

  /** The serialised file: the heading line, a newline, then the body. */
  function Serialize(heading: string, body: string): (content: string)
    ensures '\n' !in heading ==> Before(content, '\n') == "##" + heading + "##"
    ensures '\n' !in heading ==> After(content, '\n') == body
  {
    var line := "##" + heading + "##";
    HeadingLineSplits(heading, body);
    line + "\n" + body
  }

  /** The export handler's heading: the trimmed heading, except that an empty or
      placeholder heading is replaced by the date-and-time label `stamp`. */
  function ExportHeading(heading: string, stamp: string): (h: string)
    ensures Trim(heading) != "" && Trim(heading) != PLACEHOLDER ==> h == Trim(heading)
    ensures Trim(heading) == "" || Trim(heading) == PLACEHOLDER ==> h == stamp
  {
    var t := Trim(heading);
    if t == "" || t == PLACEHOLDER then stamp else t
  }

  /** The file name the export dialog suggests: the trimmed heading, or
      `scrabble-pad_<fileStamp>` for an empty or placeholder heading, plus `.txt`. */
  function DefaultFilename(heading: string, fileStamp: string): (name: string)
    ensures |name| >= 4 && name[|name| - 4..] == ".txt"
    ensures name == ExportHeading(heading, "scrabble-pad_" + fileStamp) + ".txt"
  {
    var t := Trim(heading);
    (if t == "" || t == PLACEHOLDER then "scrabble-pad_" + fileStamp else t) + ".txt"
  }

  /** The export handler. `filename` is the dialog's answer (empty when it was
      cancelled or cleared, and then nothing is exported); `stamp` is the
      date-and-time label for a heading-less note. */
  function Export(e: Editor, filename: string, stamp: string): (f: Option<ExportedFile>)
    ensures f.None? <==> filename == ""
    ensures f.Some? ==> f.value.name == filename
    ensures f.Some? && '\n' !in ExportHeading(e.heading, stamp) ==>
      && Before(f.value.content, '\n') == "##" + ExportHeading(e.heading, stamp) + "##"
      && After(f.value.content, '\n') == e.text
  {
    if filename == "" then None
    else Some(ExportedFile(filename, Serialize(ExportHeading(e.heading, stamp), e.text)))
  }

  /** The import parser: when the first line (up to the first `\n`) starts and
      ends with `##`, it is the heading with every `##` removed and then trimmed,
      and the rest of the text after that newline is the body; otherwise the
      whole text is the body. */
  function ParseNote(content: string): (n: Note)
    ensures IsHeadingLine(Before(content, '\n')) ==>
      n == Note(Trim(StripMarks(Before(content, '\n'))), After(content, '\n'))
    ensures !IsHeadingLine(Before(content, '\n')) ==> n == Note("", content)
  {
    var lines := Split(content, '\n');
    SplitHeadTail(content, '\n');
    if IsHeadingLine(lines[0]) then Note(Trim(StripMarks(lines[0])), Join(lines[1..], '\n'))
    else Note("", Join(lines, '\n'))
  }

  /** The import handler: the parsed note, with an empty heading shown as the
      placeholder. */
  function Import(content: string): (e: Editor)
    ensures e.heading != ""
    ensures !IsHeadingLine(Before(content, '\n')) ==> e == Editor(PLACEHOLDER, content)
    ensures IsHeadingLine(Before(content, '\n')) ==>
      var h := Trim(StripMarks(Before(content, '\n')));
      e == Editor(if h == "" then PLACEHOLDER else h, After(content, '\n'))
  {
    var n := ParseNote(content);
    Editor(if n.heading == "" then PLACEHOLDER else n.heading, n.body)
  }

  /** The first separator of `p + [c] + q` is the one after `p` when `p` has none. */
  lemma FirstSeparator(p: string, q: string, c: char)
    requires c !in p
    ensures Before(p + [c] + q, c) == p
    ensures After(p + [c] + q, c) == q
  {
    var s := p + [c] + q;
    assert s[|p|] == c;
    assert s[..|p|] == p;
    assert s[|p| + 1..] == q;
  }

  /** A single-line heading makes the serialised heading line the text before
      the first newline. */
  lemma HeadingLineSplits(heading: string, body: string)
    ensures '\n' !in heading ==> Before("##" + heading + "##" + "\n" + body, '\n') == "##" + heading + "##"
    ensures '\n' !in heading ==> After("##" + heading + "##" + "\n" + body, '\n') == body
  {
    var line := "##" + heading + "##";
    if '\n' !in heading {
      assert '\n' !in line by {
        assert forall i :: 2 <= i < |heading| + 2 ==> line[i] == heading[i - 2];
      }
      FirstSeparator(line, body, '\n');
    }
  }

  /** A heading free of `##` pairs survives being followed by `##` and stripped. */
  lemma {:induction false} StripMarksBeforeMark(h: string)
    requires !HasMarkPair(h)
    ensures StripMarks(h + "##") == h
  {
    var s := h + "##";
    if |h| == 0 {
      assert s == "##";
      assert StripMarks(s) == StripMarks(s[2..]);
      assert s[2..] == "";
    } else if |h| == 1 && h[0] == '#' {
      assert s == "###";
      assert StripMarks(s) == StripMarks("#");
    } else {
      assert s[0] == h[0];
      assert !(s[0] == '#' && s[1] == '#') by {
        if h[0] == '#' { assert !PairAt(h, 0); }
      }
      TailNoMarkPair(h);
      StripMarksBeforeMark(h[1..]);
      assert s[1..] == h[1..] + "##";
      assert h == [h[0]] + h[1..];
    }
  }

  /** A slice of a text free of `##` pairs is free of them too. */
  lemma SliceHasNoMarkPair(s: string, a: nat, b: nat)
    requires a <= b <= |s| && !HasMarkPair(s)
    ensures !HasMarkPair(s[a..b])
  {
    forall i | 0 <= i < b - a - 1 ensures !PairAt(s[a..b], i) {
      if PairAt(s[a..b], i) { assert PairAt(s, a + i); }
    }
  }

  /** Parsing a serialised note gives back its body whenever the heading is a
      single line. */
  lemma SerializedBodyRoundTrip(heading: string, body: string)
    requires '\n' !in heading
    ensures ParseNote(Serialize(heading, body)).body == body
  {
    SerializedLineIsHeadingLine(heading);
  }

  /** The serialised heading line passes the parser's `##` test. */
  lemma SerializedLineIsHeadingLine(heading: string)
    ensures IsHeadingLine("##" + heading + "##")
  {
    var line := "##" + heading + "##";
    assert line[..2] == "##";
    assert line[|line| - 2..] == "##";
  }

  /** The heading line of a serialised note with a single-line heading. */
  lemma SerializedHeadingLine(heading: string, body: string)
    requires '\n' !in heading
    ensures ParseNote(Serialize(heading, body)).heading == Trim(StripMarks(heading + "##"))
  {
    SerializedLineIsHeadingLine(heading);
    ParsedHeadingOfLine(Serialize(heading, body), "##" + heading + "##");
    StripSerializedLine(heading);
  }

  /** The opening `##` of a heading line is the first pair the parser removes. */
  lemma StripSerializedLine(heading: string)
    ensures StripMarks("##" + heading + "##") == StripMarks(heading + "##")
  {
    var s := "##" + heading + "##";
    assert s[0] == '#' && s[1] == '#';
    assert s[2..] == heading + "##";
  }

  /** The parser's heading, given the content's first line. */
  lemma ParsedHeadingOfLine(content: string, line: string)
    requires Before(content, '\n') == line && IsHeadingLine(line)
    ensures ParseNote(content).heading == Trim(StripMarks(line))
  {
  }

  /** A text that starts with `##` strips like the text after those two marks. */
  lemma MarkPrefix(t: string)
    ensures StripMarks("##" + t) == StripMarks(t)
  {
    var s := "##" + t;
    assert s[0] == '#' && s[1] == '#';
    assert s[2..] == t;
  }

  /** The parser's heading is always a single line. */
  lemma ParsedHeadingIsOneLine(content: string)
    ensures '\n' !in ParseNote(content).heading
  {
    var first := Before(content, '\n');
    if IsHeadingLine(first) {
      TrimKeepsAbsent(StripMarks(first), '\n');
    }
  }

  /** A heading that spans several lines costs the body its place: the parsed
      body is longer than the one exported, because the first newline falls
      inside the heading. */
  lemma MultiLineBodyLost(heading: string, body: string)
    requires '\n' in heading
    ensures |ParseNote(Serialize(heading, body)).body| > |body|
  {
    var content := Serialize(heading, body);
    var line := "##" + heading + "##";
    assert content == line + "\n" + body;
    var p := 2 + IndexOf(heading, '\n');
    assert content[p] == '\n';
    var i := IndexOf(content, '\n');
    assert i <= p;
    assert |After(content, '\n')| > |body|;
  }

  /** Parsing a serialised note gives back its body exactly when the heading is
      a single line. */
  lemma SerializedBodyRoundTripIff(heading: string, body: string)
    ensures ParseNote(Serialize(heading, body)).body == body <==> '\n' !in heading
  {
    if '\n' in heading {
      MultiLineBodyLost(heading, body);
    } else {
      SerializedBodyRoundTrip(heading, body);
    }
  }

  /** A heading that spans several lines never comes back. */
  lemma MultiLineHeadingLost(heading: string, body: string)
    requires '\n' in heading
    ensures ParseNote(Serialize(heading, body)).heading != heading
  {
    ParsedHeadingIsOneLine(Serialize(heading, body));
  }

  /** A single-line heading holding a `##` pair never comes back: the parser
      removes every pair. */
  lemma MarkPairHeadingLost(heading: string, body: string)
    requires '\n' !in heading && HasMarkPair(heading)
    ensures ParseNote(Serialize(heading, body)).heading != heading
  {
    SerializedHeadingLine(heading, body);
    TrimHasNoMarkPair(StripMarks(heading + "##"));
  }

  /** Trimming a text free of `##` pairs leaves it free of them. */
  lemma TrimHasNoMarkPair(s: string)
    requires !HasMarkPair(s)
    ensures !HasMarkPair(Trim(s))
  {
    var a := LeadingWhitespace(s);
    SliceHasNoMarkPair(s, a, a + |Trim(s)|);
  }

  /** Parsing a serialised note gives back its heading exactly when the heading
      is trimmed, is a single line and holds no `##` pair. */
  lemma SerializedHeadingRoundTrip(heading: string, body: string)
    ensures ParseNote(Serialize(heading, body)).heading == heading
        <==> IsTrimmed(heading) && '\n' !in heading && !HasMarkPair(heading)
  {
    if '\n' in heading {
      MultiLineHeadingLost(heading, body);
    } else if HasMarkPair(heading) {
      MarkPairHeadingLost(heading, body);
    } else {
      SerializedHeadingLine(heading, body);
      StripMarksBeforeMark(heading);
    }
  }

  /** Export followed by import: the body always comes back; a real heading comes
      back trimmed; an empty or placeholder heading comes back as the label. */
  lemma ExportImportRoundTrip(e: Editor, filename: string, stamp: string)
    requires filename != ""
    requires '\n' !in ExportHeading(e.heading, stamp)
    ensures Export(e, filename, stamp).Some?
    ensures Import(Export(e, filename, stamp).value.content).text == e.text
    ensures var t := Trim(e.heading);
      t != "" && t != PLACEHOLDER && !HasMarkPair(t) ==>
        Import(Export(e, filename, stamp).value.content).heading == t
    ensures var t := Trim(e.heading);
      (t == "" || t == PLACEHOLDER) && stamp != "" && IsTrimmed(stamp) && !HasMarkPair(stamp) ==>
        Import(Export(e, filename, stamp).value.content).heading == stamp
  {
    var h := ExportHeading(e.heading, stamp);
    SerializedBodyRoundTrip(h, e.text);
    SerializedHeadingRoundTrip(h, e.text);
  }

  /** A file saved with `\r\n` line endings: its first line ends in `\r`, fails
      the `##` test, and the whole file, heading line included, becomes the body
      under the placeholder heading. */
  lemma CrlfHeadingLineIsBody(content: string)
    requires var first := Before(content, '\n'); |first| > 0 && first[|first| - 1] == '\r'
    ensures Import(content) == Editor(PLACEHOLDER, content)
  {
  }

  /** A first line of just `##` is a heading line (the two marks overlap) whose
      heading is empty, so the placeholder is shown and the rest is the body. */
  lemma BareMarkLine(body: string)
    ensures Import("##\n" + body) == Editor(PLACEHOLDER, body)
  {
    FirstSeparator("##", body, '\n');
    assert "##" + "\n" + body == "##\n" + body;
    assert StripMarks("##") == "";
  }

  /** A first line of `###` is a heading line whose heading is the single `#`
      left over after removing the first pair. */
  lemma TripleMarkLine(body: string)
    ensures Import("###\n" + body) == Editor("#", body)
  {
    var content := "###\n" + body;
    assert Before(content, '\n') == "###" && After(content, '\n') == body by {
      assert content == "###" + "\n" + body;
      FirstSeparator("###", body, '\n');
    }
    assert IsHeadingLine("###");
    assert Trim(StripMarks("###")) == "#" by {
      TripleMarkStrips();
      assert IsTrimmed("#");
    }
  }

  lemma TripleMarkStrips()
    ensures StripMarks("###") == "#"
  {
    MarkPrefix("#");
    assert "##" + "#" == "###";
  }
}

=== FILE: optional.dfy ===
/** A value that may be missing: an index that was never saved, an export the
    user cancelled, a "Last edit" figure for an empty list. */
module Optional {
  datatype Option<T> = None | Some(value: T)
}

=== FILE: session.dfy ===
/** The document lifecycle as the page runs it: the current document id, the
    editor's heading and text, and the storage they are loaded from and saved
    to. Each operation is the synchronous body of the corresponding handler. */
module Session {
  import opened Optional
  import opened NoteFormat
  import opened Documents

  /** The page's state: local storage, `currentDocId` (the empty string means
      no document is loaded yet) and what the editor shows. */
  datatype Page = Page(store: Storage, current: string, editor: Editor)

  /** The keys a document's content lives under. */
  predicate IsContentKeyOf(key: string, id: string) {
    key == HeadingKey(id) || key == ContentKey(id)
  }

  /** `loadDocument`: the stored heading (placeholder when missing or empty)
      and text (empty when missing) go into the editor, and `id` becomes
      current. */
  function LoadDocument(s: Page, id: string): (r: Page)
    ensures r.store == s.store && r.current == id
    ensures HeadingKey(id) in s.store.items && s.store.items[HeadingKey(id)] != "" ==>
      r.editor.heading == s.store.items[HeadingKey(id)]
    ensures HeadingKey(id) !in s.store.items || s.store.items[HeadingKey(id)] == "" ==>
      r.editor.heading == PLACEHOLDER
    ensures ContentKey(id) in s.store.items ==> r.editor.text == s.store.items[ContentKey(id)]
    ensures ContentKey(id) !in s.store.items ==> r.editor.text == ""
  {
    var heading := ItemOr(s.store, HeadingKey(id), PLACEHOLDER);
    var text := ItemOr(s.store, ContentKey(id), "");
    s.(current := id, editor := Editor(heading, text))
  }

  /** The body of the debounced save, run when its timer fires: nothing happens
      without a current document; otherwise the editor's heading and text are
      stored under the current id and the first matching record is retitled and
      stamped `now` (the index is written back only when a record matched). */
  function SaveStep(s: Page, now: int): (r: Page)
    ensures r.current == s.current && r.editor == s.editor
    ensures s.current == "" ==> r == s
    ensures s.current != "" ==>
      && HeadingKey(s.current) in r.store.items && r.store.items[HeadingKey(s.current)] == s.editor.heading
      && ContentKey(s.current) in r.store.items && r.store.items[ContentKey(s.current)] == s.editor.text
    ensures s.current != "" ==> forall key :: !IsContentKeyOf(key, s.current) ==>
      (key in r.store.items <==> key in s.store.items) &&
      (key in s.store.items ==> r.store.items[key] == s.store.items[key])
    ensures FindIndex(DocumentsList(s.store), s.current) < 0 ==> r.store.index == s.store.index
    ensures s.current != "" && FindIndex(DocumentsList(s.store), s.current) >= 0 ==>
      DocumentsList(r.store) == RecordSave(DocumentsList(s.store), s.current, s.editor.heading, now)
  {
    if s.current == "" then s
    else
      var items := s.store.items[HeadingKey(s.current) := s.editor.heading][ContentKey(s.current) := s.editor.text];
      KeysDistinct(s.current, s.current);
      var store := s.store.(items := items);
      var docs := DocumentsList(store);
      if FindIndex(docs, s.current) >= 0 then
        s.(store := SaveDocumentsList(store, RecordSave(docs, s.current, s.editor.heading, now)))
      else s.(store := store)
  }

  /** Loading a document right after saving it shows what was saved, except
      that an empty heading comes back as the placeholder. */
  lemma SaveThenLoad(s: Page, now: int)
    requires s.current != ""
    ensures LoadDocument(SaveStep(s, now), s.current).editor ==
      Editor(if s.editor.heading == "" then PLACEHOLDER else s.editor.heading, s.editor.text)
  {
  }

  /** Only the last of several saves of the same document is visible. */
  lemma LastSaveWins(s: Page, e1: Editor, e2: Editor, t1: int, t2: int)
    requires s.current != "" && e2.heading != ""
    ensures LoadDocument(SaveStep(SaveStep(s.(editor := e1), t1).(editor := e2), t2), s.current).editor == e2
  {
    SaveThenLoad(SaveStep(s.(editor := e1), t1).(editor := e2), t2);
  }

  /** `createNewDocument`: appends the new record for `c`, makes
      it current and clears the editor to the placeholder heading and empty
      text. Its call to the debounced save is the separate `SaveStep`. */
  function CreateNewDocument(s: Page, c: Creation): (r: Page)
    ensures r.current == c.id && r.editor == Editor(PLACEHOLDER, "")
    ensures r.store.items == s.store.items
    ensures |DocumentsList(r.store)| == |DocumentsList(s.store)| + 1
    ensures DocumentsList(r.store)[..|DocumentsList(s.store)|] == DocumentsList(s.store)
    ensures DocumentsList(r.store)[|DocumentsList(s.store)|] == NewRecord(c)
  {
    var docs := DocumentsList(s.store);
    var store := SaveDocumentsList(s.store, docs + [NewRecord(c)]);
    Page(store, c.id, Editor(PLACEHOLDER, ""))
  }

  /** Creation keeps the index invariants when the new id is fresh and the
      clock did not go back between its two readings. */
  lemma CreateKeepsInvariants(s: Page, c: Creation)
    requires FindIndex(DocumentsList(s.store), c.id) < 0
    requires c.created <= c.updated
    ensures UniqueIds(DocumentsList(s.store)) ==> UniqueIds(DocumentsList(CreateNewDocument(s, c).store))
    ensures WellTimed(DocumentsList(s.store)) ==> WellTimed(DocumentsList(CreateNewDocument(s, c).store))
  {
    var docs := DocumentsList(s.store);
    var after := DocumentsList(CreateNewDocument(s, c).store);
    assert forall j :: 0 <= j < |docs| ==> after[j] == docs[j];
  }

  /** A new document once its pending save has run: empty content is stored
      under the new id, the record is retitled "Untitled Document" (its heading
      is the placeholder) and stamped with the save time, and loading it gives
      the cleared editor back. */
  lemma CreateThenSave(s: Page, c: Creation, now: int)
    requires c.id != "" && FindIndex(DocumentsList(s.store), c.id) < 0
    ensures var r := SaveStep(CreateNewDocument(s, c), now);
      var docs := DocumentsList(r.store);
      && |docs| == |DocumentsList(s.store)| + 1
      && docs[|docs| - 1] == Doc(c.id, UNTITLED, c.created, now, false)
      && r.store.items[HeadingKey(c.id)] == PLACEHOLDER
      && r.store.items[ContentKey(c.id)] == ""
      && LoadDocument(r, c.id).editor == Editor(PLACEHOLDER, "")
  {
    var old_docs := DocumentsList(s.store);
    var p := CreateNewDocument(s, c);
    var docs := DocumentsList(p.store);
    assert FindIndex(docs, c.id) == |old_docs| by {
      assert forall j :: 0 <= j < |old_docs| ==> docs[j] == old_docs[j];
    }
  }

  /** `deleteDocument` once the user has confirmed (nothing happens otherwise):
      every record with `id` leaves the index, its heading and content are
      removed, and if it was the current document the last remaining record is
      loaded, or a new document is created when none remains. */
  function DeleteDocument(s: Page, id: string, confirmed: bool, c: Creation): (r: Page)
    ensures !confirmed ==> r == s
    ensures confirmed ==> HeadingKey(id) !in r.store.items && ContentKey(id) !in r.store.items
    ensures confirmed ==> forall key :: !IsContentKeyOf(key, id) ==>
      (key in r.store.items <==> key in s.store.items) &&
      (key in s.store.items ==> r.store.items[key] == s.store.items[key])
    ensures confirmed && id != s.current ==>
      && DocumentsList(r.store) == RemoveId(DocumentsList(s.store), id)
      && r.current == s.current && r.editor == s.editor
    ensures confirmed && id == s.current && |RemoveId(DocumentsList(s.store), id)| > 0 ==>
      var rest := RemoveId(DocumentsList(s.store), id);
      var last := rest[|rest| - 1].id;
      && DocumentsList(r.store) == rest && r.current == last
      && r.editor == Editor(ItemOr(s.store, HeadingKey(last), PLACEHOLDER), ItemOr(s.store, ContentKey(last), ""))
    ensures confirmed && id == s.current && |RemoveId(DocumentsList(s.store), id)| == 0 ==>
      DocumentsList(r.store) == [NewRecord(c)] && r.current == c.id && r.editor == Editor(PLACEHOLDER, "")
  {
    if !confirmed then s
    else
      var docs := RemoveId(DocumentsList(s.store), id);
      var store := SaveDocumentsList(s.store, docs);
      var store' := store.(items := store.items - {HeadingKey(id), ContentKey(id)});
      var s' := s.(store := store');
      if id == s.current then
        if |docs| > 0 then
          var last := docs[|docs| - 1].id;
          assert last != id by { assert docs[|docs| - 1] in docs; }
          KeysDistinct(last, id);
          LoadDocument(s', last)
        else CreateNewDocument(s', c)
      else s'
  }

  /** A deleted document loads as an empty note, and no record with its id is
      left unless the replacement document happened to reuse it. */
  lemma DeletedDocumentIsGone(s: Page, id: string, c: Creation)
    requires c.id != id
    ensures var r := DeleteDocument(s, id, true, c);
      && LoadDocument(r, id).editor == Editor(PLACEHOLDER, "")
      && FindIndex(DocumentsList(r.store), id) < 0
  {
    var r := DeleteDocument(s, id, true, c);
    var rest := RemoveId(DocumentsList(s.store), id);
    assert forall j :: 0 <= j < |rest| ==> rest[j] in rest;
  }

  /** The id in the address bar: the path without its first character (the
      leading `/`). */
  function PathDocId(path: string): (id: string)
    ensures |path| > 0 ==> path == [path[0]] + id
    ensures |path| == 0 ==> id == ""
  {
    if |path| == 0 then "" else path[1..]
  }

  /** `initDocumentSystem`: the document shown at start-up is the first that
      applies of the redirect id left by the 404 page (`redirect`, empty when
      absent), the id in the path unless it is empty or `index.html`, the last
      record of the index, or a newly created document. */
  function InitDocumentSystem(s: Page, redirect: string, path: string, c: Creation): (r: Page)
    ensures redirect != "" ==> r == LoadDocument(s, redirect)
    ensures redirect == "" && PathDocId(path) != "" && PathDocId(path) != "index.html" ==>
      r == LoadDocument(s, PathDocId(path))
    ensures redirect == "" && (PathDocId(path) == "" || PathDocId(path) == "index.html") ==>
      var docs := DocumentsList(s.store);
      (|docs| > 0 ==> r == LoadDocument(s, docs[|docs| - 1].id)) &&
      (|docs| == 0 ==> r == CreateNewDocument(s, c))
  {
    if redirect != "" then LoadDocument(s, redirect)
    else
      var docId := PathDocId(path);
      if docId != "" && docId != "index.html" then LoadDocument(s, docId)
      else
        var docs := DocumentsList(s.store);
        if |docs| > 0 then LoadDocument(s, docs[|docs| - 1].id)
        else CreateNewDocument(s, c)
  }

  /** Start-up always ends with a current document (every id the page generates
      is non-empty), and it adds a record only when it had to create one: then
      exactly one, titled "New Document", stamped with the two clock readings. */
  lemma InitOutcome(s: Page, redirect: string, path: string, c: Creation)
    requires c.id != ""
    requires forall j :: 0 <= j < |DocumentsList(s.store)| ==> DocumentsList(s.store)[j].id != ""
    ensures var r := InitDocumentSystem(s, redirect, path, c);
      && r.current != ""
      && r.store.items == s.store.items
      && (r.store.index == s.store.index ||
          DocumentsList(r.store) == DocumentsList(s.store) + [NewRecord(c)])
  {
    var r := InitDocumentSystem(s, redirect, path, c);
    var docs := DocumentsList(s.store);
    if redirect == "" && (PathDocId(path) == "" || PathDocId(path) == "index.html") && |docs| == 0 {
      assert DocumentsList(r.store) == docs + [NewRecord(c)];
    }
  }
}

=== FILE: text.dfy ===
/** String primitives with JavaScript's semantics: the whitespace class shared
    by `String.prototype.trim` and the regular-expression escape `\s`, trimming,
    and `split`/`join` on a one-character separator.

    A `char` stands for one UTF-16 code unit of a JavaScript string. */
module Text {

  /** JavaScript's WhiteSpace and LineTerminator code points: what `trim`
      strips and what `\s` matches. */
  predicate IsWhitespace(c: char) {
    || c == '\t' || c == '\n' || c == '\U{0B}' || c == '\U{0C}' || c == '\r' || c == ' '
    || c == '\U{A0}' || c == '\U{1680}' || ('\U{2000}' <= c <= '\U{200A}')
    || c == '\U{2028}' || c == '\U{2029}' || c == '\U{202F}' || c == '\U{205F}'
    || c == '\U{3000}' || c == '\U{FEFF}'
  }

  predicate AllWhitespace(s: string) {
    forall i :: 0 <= i < |s| ==> IsWhitespace(s[i])
  }

  predicate NoWhitespace(s: string) {
    forall i :: 0 <= i < |s| ==> !IsWhitespace(s[i])
  }

  /** Neither end of `s` is whitespace: `trim` leaves `s` as it is. */
  predicate IsTrimmed(s: string) {
    |s| == 0 || (!IsWhitespace(s[0]) && !IsWhitespace(s[|s| - 1]))
  }

  /** Length of the longest whitespace prefix of `s`. */
  function LeadingWhitespace(s: string): (n: nat)
    ensures n <= |s|
    ensures AllWhitespace(s[..n])
    ensures n < |s| ==> !IsWhitespace(s[n])
  {
    if |s| > 0 && IsWhitespace(s[0]) then 1 + LeadingWhitespace(s[1..]) else 0
  }

  /** Length of the longest whitespace-free prefix of `s`. */
  function LeadingNonWhitespace(s: string): (n: nat)
    ensures n <= |s|
    ensures NoWhitespace(s[..n])
    ensures n < |s| ==> IsWhitespace(s[n])
  {
    if |s| > 0 && !IsWhitespace(s[0]) then 1 + LeadingNonWhitespace(s[1..]) else 0
  }

  /** Length of the longest whitespace suffix of `s`. */
  function TrailingWhitespace(s: string): (n: nat)
    ensures n <= |s|
    ensures AllWhitespace(s[|s| - n..])
    ensures n < |s| ==> !IsWhitespace(s[|s| - n - 1])
  {
    if |s| > 0 && IsWhitespace(s[|s| - 1]) then 1 + TrailingWhitespace(s[..|s| - 1]) else 0
  }

  /** `s.trimStart()`: `s` without its leading whitespace. */
  function TrimStart(s: string): (r: string)
    ensures r == s[LeadingWhitespace(s)..]
    ensures |r| == 0 || !IsWhitespace(r[0])
  {
    s[LeadingWhitespace(s)..]
  }

  /** `s.trimEnd()`: `s` without its trailing whitespace. */
  function TrimEnd(s: string): (r: string)
    ensures r == s[..|s| - TrailingWhitespace(s)]
    ensures |r| == 0 || !IsWhitespace(r[|r| - 1])
  {
    s[..|s| - TrailingWhitespace(s)]
  }

  /** `s.trim()`: `s` without its leading and trailing whitespace. */
  function Trim(s: string): (r: string)
    ensures IsTrimmed(r)
    ensures LeadingWhitespace(s) + |r| <= |s|
    ensures r == s[LeadingWhitespace(s)..LeadingWhitespace(s) + |r|]
    ensures AllWhitespace(s[..LeadingWhitespace(s)])
    ensures AllWhitespace(s[LeadingWhitespace(s) + |r|..])
    ensures r == [] <==> AllWhitespace(s)
    ensures IsTrimmed(s) ==> r == s
  {
    var a := LeadingWhitespace(s);
    var t := TrimStart(s);
    var r := TrimEnd(t);
    var b := TrailingWhitespace(t);
    assert s[a..][|t| - b..] == s[a + |r|..];
    assert r == s[a..a + |r|];
    TrimmedEmptyIffAllWhitespace(s, a, |r|);
    r
  }

  /** A slice with whitespace on both sides is empty exactly when all of `s` is whitespace. */
  lemma TrimmedEmptyIffAllWhitespace(s: string, a: nat, n: nat)
    requires a + n <= |s|
    requires AllWhitespace(s[..a]) && AllWhitespace(s[a + n..])
    requires n == 0 || !IsWhitespace(s[a])
    ensures n == 0 <==> AllWhitespace(s)
  {
    if n == 0 {
      forall i | 0 <= i < |s| ensures IsWhitespace(s[i]) {
        if i < a { assert s[..a][i] == s[i]; } else { assert s[a..][i - a] == s[i]; }
      }
    }
  }

  /** Trimming adds no character. */
  lemma TrimKeepsAbsent(s: string, c: char)
    requires c !in s
    ensures c !in Trim(s)
  {
  }

  /** Index of the first occurrence of `c` in `s`. */
  function IndexOf(s: string, c: char): (i: nat)
    requires c in s
    ensures i < |s| && s[i] == c
    ensures c !in s[..i]
  {
    if s[0] == c then 0 else 1 + IndexOf(s[1..], c)
  }

  /** `parts.join(sep)` for a one-character separator. */
  function Join(parts: seq<string>, sep: char): string {
    if |parts| == 0 then ""
    else if |parts| == 1 then parts[0]
    else parts[0] + [sep] + Join(parts[1..], sep)
  }

  /** `s.split(sep)` for a one-character separator: the pieces between the
      occurrences of `sep`, in order; there is always at least one piece. */
  function Split(s: string, sep: char): (parts: seq<string>)
    ensures |parts| >= 1
    ensures forall i :: 0 <= i < |parts| ==> sep !in parts[i]
    ensures Join(parts, sep) == s
    decreases |s|
  {
    if sep !in s then [s]
    else
      var i := IndexOf(s, sep);
      var rest := Split(s[i + 1..], sep);
      assert s == s[..i] + [sep] + s[i + 1..];
      [s[..i]] + rest
  }

  /** Text before the first occurrence of `sep` (all of `s` if there is none). */
  function Before(s: string, sep: char): (r: string)
    ensures sep !in r && r <= s
  {
    if sep in s then s[..IndexOf(s, sep)] else s
  }

  /** Text after the first occurrence of `sep` (empty if there is none). */
  function After(s: string, sep: char): (r: string)
    ensures sep in s ==> s == Before(s, sep) + [sep] + r
    ensures sep !in s ==> r == []
  {
    if sep in s then s[IndexOf(s, sep) + 1..] else ""
  }

  /** The first piece of `split` is the text before the first separator, and
      joining the remaining pieces gives back exactly the text after it. */
  lemma {:induction false} SplitHeadTail(s: string, sep: char)
    ensures Split(s, sep)[0] == Before(s, sep)
    ensures Join(Split(s, sep)[1..], sep) == After(s, sep)
  {
    if sep in s {
      var i := IndexOf(s, sep);
      var rest := Split(s[i + 1..], sep);
      assert Split(s, sep) == [s[..i]] + rest;
      assert Split(s, sep)[1..] == rest;
    } else {
      assert Split(s, sep) == [s];
    }
  }
}

=== FILE: word_count.dfy ===
/** The editor's word and character counter (`updateWordCount`), also used for
    the word count on each card of the document list. */
module WordCounter {
  import opened Text

  /** `s.split(/\s+/)`: the pieces between maximal whitespace runs. A leading or
      trailing run yields an empty first or last piece, as in JavaScript. */
  function SplitWhitespace(s: string): (parts: seq<string>)
    ensures |parts| >= 1
    decreases |s|
  {
    var i := LeadingNonWhitespace(s);
    if i == |s| then [s]
    else
      var j := i + LeadingWhitespace(s[i..]);
      [s[..i]] + SplitWhitespace(s[j..])
  }

  /** Reference definition: the number of maximal whitespace-free runs of `s`,
      counted at the character that ends each run. */
  function Words(s: string): nat {
    if |s| == 0 then 0
    else if !IsWhitespace(s[0]) && (|s| == 1 || IsWhitespace(s[1])) then 1 + Words(s[1..])
    else Words(s[1..])
  }

  /** The counter's word figure: 0 when the trimmed text is empty, otherwise the
      number of pieces `split(/\s+/)` gives for the trimmed text. */
  function WordCount(text: string): (r: nat)
    ensures r == Words(text)
    ensures r <= |text|
    ensures r == 0 <==> AllWhitespace(text)
  {
    var t := Trim(text);
    WordsOfTrim(text);
    WordsBound(text);
    WordsZeroIffAllWhitespace(text);
    if t == "" then 0
    else
      SplitCountsWords(t);
      |SplitWhitespace(t)|
  }

  /** The counter's character figure: the length of the text. */
  function CharCount(text: string): (r: nat)
    ensures r == |text|
    ensures WordCount(text) <= r
    ensures r == 0 <==> text == ""
  {
    |text|
  }

  lemma {:induction false} WordsBound(s: string)
    ensures Words(s) <= |s|
  {
    if |s| > 0 { WordsBound(s[1..]); }
  }

  lemma {:induction false} WordsZeroIffAllWhitespace(s: string)
    ensures Words(s) == 0 <==> AllWhitespace(s)
  {
    if |s| > 0 {
      WordsZeroIffAllWhitespace(s[1..]);
      if !IsWhitespace(s[0]) && |s| > 1 && !IsWhitespace(s[1]) {
        assert !AllWhitespace(s[1..]) by { assert s[1..][0] == s[1]; }
      }
      if AllWhitespace(s[1..]) && IsWhitespace(s[0]) {
        forall i | 0 <= i < |s| ensures IsWhitespace(s[i]) {
          if i > 0 { assert s[1..][i - 1] == s[i]; }
        }
      }
    }
  }

  /** Counting is additive across a boundary that no run straddles. */
  lemma {:induction false} WordsConcat(a: string, b: string)
    requires |a| == 0 || |b| == 0 || IsWhitespace(a[|a| - 1]) || IsWhitespace(b[0])
    ensures Words(a + b) == Words(a) + Words(b)
  {
    if |a| == 0 {
      assert a + b == b;
    } else if |b| == 0 {
      assert a + b == a;
    } else {
      assert (a + b)[1..] == a[1..] + b;
      if |a| > 1 {
        WordsConcat(a[1..], b);
        assert (a + b)[1] == a[1];
      }
    }
  }

  lemma {:induction false} WordsOfWord(w: string)
    requires |w| > 0 && NoWhitespace(w)
    ensures Words(w) == 1
  {
    if |w| > 1 {
      assert NoWhitespace(w[1..]) by {
        forall i | 0 <= i < |w| - 1 ensures !IsWhitespace(w[1..][i]) { assert w[1..][i] == w[i + 1]; }
      }
      WordsOfWord(w[1..]);
    }
  }

  /** A word, then a whitespace run, then the rest: one more word than the rest. */
  lemma WordThenGap(w: string, g: string, rest: string)
    requires |w| > 0 && NoWhitespace(w)
    requires |g| > 0 && AllWhitespace(g)
    ensures Words(w + (g + rest)) == 1 + Words(rest)
  {
    WordsZeroIffAllWhitespace(g);
    WordsConcat(g, rest);
    WordsConcat(w, g + rest);
    WordsOfWord(w);
  }

  /** What follows the first word of `s` and the whitespace run after it. */
  function AfterFirstGap(s: string): (rest: string)
    requires LeadingNonWhitespace(s) < |s|
    ensures |rest| < |s|
  {
    var i := LeadingNonWhitespace(s);
    s[i + LeadingWhitespace(s[i..])..]
  }

  lemma AfterFirstGapTrimmed(s: string)
    requires |s| > 0 && IsTrimmed(s) && LeadingNonWhitespace(s) < |s|
    ensures |AfterFirstGap(s)| > 0 && IsTrimmed(AfterFirstGap(s))
  {
    var i := LeadingNonWhitespace(s);
    var g := LeadingWhitespace(s[i..]);
    var j := i + g;
    assert s[i..][0] == s[i];
    var rest := s[j..];
    assert rest[0] == s[i..][g];
    assert rest[|rest| - 1] == s[|s| - 1];
  }

  lemma AfterFirstGapPieces(s: string)
    requires LeadingNonWhitespace(s) < |s|
    ensures |SplitWhitespace(s)| == 1 + |SplitWhitespace(AfterFirstGap(s))|
  {
  }

  /** `s` as its first word, the whitespace run after it, and the rest. */
  lemma FirstWordGap(s: string) returns (w: string, gap: string)
    requires |s| > 0 && !IsWhitespace(s[0]) && LeadingNonWhitespace(s) < |s|
    ensures |w| > 0 && NoWhitespace(w)
    ensures |gap| > 0 && AllWhitespace(gap)
    ensures s == w + (gap + AfterFirstGap(s))
  {
    var i := LeadingNonWhitespace(s);
    var t := s[i..];
    var g := LeadingWhitespace(t);
    w, gap := s[..i], t[..g];
    assert t[0] == s[i];
    assert t == gap + t[g..];
  }

  lemma AfterFirstGapWords(s: string)
    requires |s| > 0 && !IsWhitespace(s[0]) && LeadingNonWhitespace(s) < |s|
    ensures Words(s) == 1 + Words(AfterFirstGap(s))
  {
    var w, gap := FirstWordGap(s);
    WordThenGap(w, gap, AfterFirstGap(s));
  }

  /** `split(/\s+/)` on a non-empty trimmed text yields one piece per word. */
  lemma {:induction false} SplitCountsWords(s: string)
    requires |s| > 0 && IsTrimmed(s)
    ensures |SplitWhitespace(s)| == Words(s)
    decreases |s|
  {
    if LeadingNonWhitespace(s) == |s| {
      assert s[..|s|] == s;
      WordsOfWord(s);
    } else {
      AfterFirstGapTrimmed(s);
      AfterFirstGapPieces(s);
      AfterFirstGapWords(s);
      SplitCountsWords(AfterFirstGap(s));
    }
  }

  /** Whitespace around a text adds no word. */
  lemma WordsPadded(u: string, t: string, v: string)
    requires AllWhitespace(u) && AllWhitespace(v)
    ensures Words(u + (t + v)) == Words(t)
  {
    WordsZeroIffAllWhitespace(u);
    WordsZeroIffAllWhitespace(v);
    WordsConcat(t, v);
    WordsConcat(u, t + v);
  }

  /** Trimming removes only whitespace, so it removes no word. */
  lemma WordsOfTrim(s: string)
    ensures Words(Trim(s)) == Words(s)
  {
    var a := LeadingWhitespace(s);
    var t := Trim(s);
    var b := a + |t|;
    var u, v := s[..a], s[b..];
    assert AllWhitespace(u) && AllWhitespace(v);
    assert s == u + (t + v) by {
      assert t == s[a..b];
    }
    WordsPadded(u, t, v);
  }
}
